=== FILE: README.md ===
# Exhibition booth booking frontend: a Dafny model

This project models the client-side logic of a Next.js frontend for booking booths at exhibitions:

- the two session managers. `AuthContext` restores a session from `localStorage`, runs the login protocol against `/auth/login` and `/auth/me` (with its fallback chain and user normalisation), and logs out. `AuthProvider` stores what its caller hands it, initialises at mount and refreshes the profile.
- the `/mybooking` route guard in `middleware.ts`.
- the request helpers of `apiUtils.ts`.
- the venue-rating reducer of `CardPanel`.
- the pages:
  - the home page's "three upcoming exhibitions";
  - the exhibition list with its status badge and reply handling;
  - the admin "create exhibition" form;
  - the registration form;
  - the "my bookings" page, covering loading, card rendering and delete.

JavaScript values are one datatype, `Js.JsValue`. Its operations are written out:

- truthiness, `||` and `??`;
- property reads, where reading from `null` or `undefined` throws a `TypeError`;
- `String(v)`;
- the view `JSON.stringify` followed by `JSON.parse` gives of a value.

The model takes these as parameters rather than fixing them: server replies (`Http.Fetched`), `JSON.parse`/`JSON.stringify` (`Js.JsonCodec`), the clock, `new Date(...)`, `parseInt` and `toLocaleDateString`. Alerts, navigation targets and requests sent are returned as values.

Modules follow the source files:

| module | source |
|---|---|
| `Wrappers`, `Js`, `Http`, `Text`, `Seqs`, `Time`, `Storage` | shared semantics of JavaScript, `fetch`, `Date` and `localStorage` |
| `SessionState` | the `(user, token, loading)` state both session managers keep, and the commit and sign-out transitions they share |
| `AuthContext` | `src/contexts/AuthContext.tsx` |
| `AuthProvider` | `src/providers/AuthProvider.tsx` (and `getCurrentUser` of `src/libs/authAPI.tsx`) |
| `Middleware` | `middleware.ts` |
| `ApiUtils` | `src/libs/apiUtils.ts` |
| `Ratings` | `src/components/CardPanel.tsx` |
| `Home` | `src/app/page.tsx` |
| `Exhibitions` | `src/app/exhibitions/page.tsx` |
| `AdminCreate` | `src/app/admin/exhibitions/create/page.tsx` |
| `Register` | `src/app/register/page.tsx` |
| `MyBooking` | `src/app/mybooking/page.tsx` |

### Behaviour of the code worth knowing

- Logout makes no call to the backend. It clears memory and the two storage keys only.
- A login that resolves after a logout still commits: nothing in `login` checks whether a logout happened while it was waiting. Interleavings themselves are not modelled.
- Restoring at mount does not clear storage when only one of `token` and `user` is present. Only a parse failure removes both keys.
- A stored `user` of `"null"` parses, and the token is restored with a `null` user (`AuthContext.RestoreTrustsNull`).
- Login commits as soon as the login reply has truthy `success` and `token`. It commits even when no identifier is found anywhere: the `/auth/me` failure path normalises the fallback without checking `_id` (`AuthContext.LoginCommitsWithoutId`).
- The committed role is whatever the profile says, possibly `undefined`. No default role is filled in.
- A truthy token is committed as `String(token)`. A number comes back from storage as a string, and a token whose string is empty (an empty array) is stored as `""`, so the next restart is signed out (`AuthContext.EmptyArrayTokenIsLostOnRestart`).
- The create form's date input yields `YYYY-MM-DD`, which `new Date` reads as UTC midnight, while the guard compares with local midnight. Behind UTC, picking today's date is rejected as a past date (`AdminCreate.TodayPickedBehindUtcRejected`).
- The login error message is `String(errorData.message)`. It can be empty, for instance when the message is an array of empty strings.

## Model

| member | source | states |
|---|---|---|
| SessionState.Mount | src/contexts/AuthContext.tsx:35-37 | at mount there is no user and no token, the session is loading, and storage is whatever the browser kept |
| SessionState.Commit | src/contexts/AuthContext.tsx:129-135 | a commit sets user and token in memory and leaves storage holding exactly their serialisation (`Persisted`); no other storage key changes |
| SessionState.SignOut | src/contexts/AuthContext.tsx:171-176 | signing out nulls user and token, removes both storage keys, keeps every other key and the loading flag |
| SessionState.SignOutIdempotent | src/contexts/AuthContext.tsx:171-176 | signing out twice is signing out once |
| SessionState.SignOutForgetsCommit | src/contexts/AuthContext.tsx:171-176 | a sign-out after a commit leaves no trace of the commit |
| AuthContext.Restore | src/contexts/AuthContext.tsx:39-63 | the three mount cases: truthy pair with parsable user restores (token, parsed user) and keeps storage; truthy pair with unparsable user removes both keys and keeps the state; otherwise nothing changes; loading always ends |
| AuthContext.AcceptLogin | src/contexts/AuthContext.tsx:70-87 | the login reply is accepted exactly when it is OK, JSON, and has truthy `success` and `token` |
| AuthContext.Fallback | src/contexts/AuthContext.tsx:111-115 | the fallback identity is always truthy: `data.data` when truthy, else `data.user` when truthy, else an object with exactly the keys `_id`, `name`, `email`: `_id` from `_id` or `id`, the reply's name and email, so no role |
| AuthContext.MeProfile | src/contexts/AuthContext.tsx:90-140 | the `/auth/me` step only ever yields a truthy profile that has an `_id` or `id` |
| AuthContext.Normalize | src/contexts/AuthContext.tsx:121-127 | a normalised user has exactly the fields `_id`, `name`, `email`, `role`, with `_id` taken from `_id` or else `id` |
| AuthContext.LoginUser | src/contexts/AuthContext.tsx:106-155 | whichever path is taken, the committed user has exactly the four normalised fields |
| AuthContext.Login | src/contexts/AuthContext.tsx:68-169 | login succeeds exactly when the login reply is accepted; on failure nothing changes; on success the reply's token and `LoginUser` of the reply and the `/auth/me` answer (the qualifying profile, else the fallback, normalised) are committed, persisted, and other storage keys kept |
| AuthContext.Logout | src/contexts/AuthContext.tsx:171-176 | logout nulls user and token and removes both storage keys only |
| AuthContext.LoginRejectedMessage | src/contexts/AuthContext.tsx:78-81 | a non-OK reply rejects with the body's message as a string, or "Login failed", and commits nothing |
| AuthContext.LoginInvalidResponse | src/contexts/AuthContext.tsx:162-164 | an OK reply without truthy `success` or `token` rejects with "Invalid response from server" |
| AuthContext.LoginUsesMeProfile | src/contexts/AuthContext.tsx:106-108 | when `/auth/me` answers with `success` and a profile carrying an id, that profile, role included, is what is committed |
| AuthContext.LoginFallsBack | src/contexts/AuthContext.tsx:141-155 | whenever `/auth/me` does not deliver such a profile, the committed user is the login reply's own identity |
| AuthContext.LoginCommitsWithoutId | src/contexts/AuthContext.tsx:144-160 | with `/auth/me` unreachable and a reply of only `success` and `token`, login still commits, with an `undefined` `_id` |
| AuthContext.LoginThenRestore | src/contexts/AuthContext.tsx:130-135 | after a committed login and a restart, restoring yields `String(token)` of the committed token (a number comes back as a string) and the committed user as JSON preserves it; a token whose string is empty is not restored and the restart is signed out |
| AuthContext.EmptyArrayTokenIsLostOnRestart | src/contexts/AuthContext.tsx:86-135 | a login reply with `token: []` is accepted and committed, but after a restart the session is signed out |
| AuthContext.LogoutThenRestore | src/contexts/AuthContext.tsx:171-176 | after logout and a restart, restoring finds nothing: no user, no token, loading ended |
| AuthContext.RestoreTrustsNull | src/contexts/AuthContext.tsx:48-52 | a stored user of JSON `null` is accepted and restored as a null user beside the token |
| AuthContext.AdminLoginScenario | src/contexts/AuthContext.tsx:68-137 | login with token T1 and an admin profile from `/auth/me` commits T1 and exactly that profile |
| AuthProvider.Login | src/providers/AuthProvider.tsx:50-55 | the given token and user are set in memory and stored as the token and `JSON.stringify(user)`; other keys kept |
| AuthProvider.Logout | src/providers/AuthProvider.tsx:57-62 | user and token null, both keys gone, other keys and loading flag kept |
| AuthProvider.InitializeAuth | src/providers/AuthProvider.tsx:86-100 | initialisation always ends loading |
| AuthProvider.GetCurrentUser | src/libs/authAPI.tsx:59-72 | the profile request yields the parsed body exactly when the response is OK and JSON; a non-OK response throws "Cannot get user profile" |
| AuthProvider.RefreshUser | src/providers/AuthProvider.tsx:64-84 | a refresh always ends loading |
| AuthProvider.LogoutIdempotent | src/providers/AuthProvider.tsx:57-62 | logging out twice is logging out once |
| AuthProvider.InitializeRestores | src/providers/AuthProvider.tsx:91-94 | truthy token and parsable user: the state becomes (parsed user, stored token), storage unchanged |
| AuthProvider.InitializeCorruptIsLogout | src/providers/AuthProvider.tsx:95-97 | an unparsable stored user makes initialisation equal to logout followed by the end of loading |
| AuthProvider.InitializeWithoutPair | src/providers/AuthProvider.tsx:91-99 | a missing or empty key changes only the loading flag |
| AuthProvider.LoginThenInitialize | src/providers/AuthProvider.tsx:50-55 | login, restart and initialisation give back the token and the user as JSON preserves it, and a user without `undefined` anywhere (one that came from `JSON.parse`) exactly |
| AuthProvider.RefreshWithoutToken | src/providers/AuthProvider.tsx:65-69 | without a truthy stored token only the loading flag changes |
| AuthProvider.RefreshSuccess | src/providers/AuthProvider.tsx:72-75 | an accepted reply sets the user to `response.data` and the token to the stored token, storage unchanged |
| AuthProvider.RefreshFailureIsLogout | src/providers/AuthProvider.tsx:76-80 | any other reply or thrown error is logout followed by the end of loading |
| Middleware.TokenCookie | middleware.ts:7 | a token is read exactly when a `token` cookie exists, and it is that cookie's value |
| Middleware.Guard | middleware.ts:4-16 | redirect exactly when the path starts with `/mybooking` and the token cookie is missing or empty; the redirect target is the request URL with path `/login` |
| Middleware.Route | middleware.ts:19-21 | requests outside the matcher pass; a redirect happens exactly on the matched path without a token |
| Middleware.RedirectOnlyChangesPath | middleware.ts:10-12 | a redirect keeps origin, query and fragment and changes only the path |
| Middleware.GuardDependsOnPrefixAndToken | middleware.ts:4-16 | two requests that agree on the prefix test and the token get the same decision |
| Middleware.GuardPassesWithToken | middleware.ts:6-8 | a non-empty token cookie always passes |
| Middleware.GuardIgnoresOtherPaths | middleware.ts:6-15 | paths outside `/mybooking` always pass |
| ApiUtils.ApiBaseUrl | src/libs/apiUtils.ts:3 | a non-empty configured URL wins, otherwise `http://localhost:5000/api/v1` |
| ApiUtils.AuthHeaders | src/libs/apiUtils.ts:6-16 | JSON content type always; `Authorization: Bearer <token>` exactly when the token is non-empty; no other header |
| ApiUtils.ResolveUrl | src/libs/apiUtils.ts:32 | an endpoint starting with `http` is used as is, anything else is appended to the base |
| ApiUtils.ResolveIdempotent | src/libs/apiUtils.ts:32 | with an `http…` base every resolved URL is absolute, so resolving it again changes nothing |
| ApiUtils.MergeHeaders | src/libs/apiUtils.ts:34-40 | supplied headers override defaults; defaults survive where not supplied; nothing else appears |
| ApiUtils.ApiRequest | src/libs/apiUtils.ts:27-48 | the request carries the resolved URL and merged headers; the result is the parsed body exactly when OK and JSON; a non-OK response throws the response error |
| ApiUtils.ResponseError | src/libs/apiUtils.ts:42-44 | a `null` body makes the `.message` read throw a TypeError, the only TypeError; an unparsable body gives the status text or the status line; a JSON body without a message gives `HTTP Error: <status>`; a truthy message is the error message as `String(message)` |
| ApiUtils.HandleApiError | src/libs/apiUtils.ts:19-24 | an `Error` is rethrown as is, anything else becomes "An unexpected error occurred" |
| ApiUtils.BodyMessageWins | src/libs/apiUtils.ts:42-44 | a non-empty string message in the error body is the error message |
| ApiUtils.StatusMessage | src/libs/apiUtils.ts:42-44 | without a message the error reads `HTTP Error: <status>` and the status can be read back from the text |
| ApiUtils.UnparsableBodyUsesStatusText | src/libs/apiUtils.ts:43-44 | an unparsable body yields the status text, or the status line when that is empty |
| ApiUtils.SuppliedAuthorizationWins | src/libs/apiUtils.ts:36-39 | a caller-supplied `Authorization` header replaces the bearer token |
| Ratings.Put | src/components/CardPanel.tsx:19 | setting a rating makes it the venue's rating, changes no other venue, updates in place or appends, and keeps keys unique |
| Ratings.Delete | src/components/CardPanel.tsx:21 | removing drops the venue, keeps every other rating, shortens by one exactly when present, keeps keys unique |
| Ratings.DeleteIsFilter | src/components/CardPanel.tsx:21 | on a map with distinct keys, removing a venue keeps all other entries in their insertion order: it is the filter on keys |
| Ratings.Reduce | src/components/CardPanel.tsx:16-24 | the reducer sets or removes the named venue's rating and changes no other |
| Ratings.DisplayedRating | src/components/CardPanel.tsx:59 | a card shows the stored rating, or 0 for an unrated venue |
| Ratings.InitialRatingsShape | src/components/CardPanel.tsx:27-30 | the initial map rates exactly the three venues 0, in catalogue order |
| Ratings.PutIdempotent | src/components/CardPanel.tsx:18-19 | setting the same rating twice is setting it once |
| Ratings.DeleteAbsent | src/components/CardPanel.tsx:20-21 | removing an unrated venue changes nothing |
| Ratings.DeleteThenPutAppends | src/components/CardPanel.tsx:16-24 | removing then setting a venue moves it to the end of the iteration order |
| Ratings.PutAppendsAbsent | src/components/CardPanel.tsx:18-19 | setting an unrated venue appends it |
| Home.FilterUpcoming | src/app/page.tsx:19-20 | the filter throws exactly when an element is null or undefined; otherwise it keeps only exhibitions starting after now |
| Home.IsUpcoming | src/app/page.tsx:20 | an element is upcoming exactly when it is not nullish and its start date is valid and later than now; an invalid date never is |
| Home.FilterUpcomingIsFilter | src/app/page.tsx:19-20 | a filter that does not throw computes the order-preserving selection of upcoming elements |
| Home.ShownUpcoming | src/app/page.tsx:19-21 | the shown list is a prefix of the upcoming ones of length the smaller of three and their number, so exactly the first three or all of them |
| Home.LoadHome | src/app/page.tsx:14-28 | loading ends, at most three upcoming exhibitions are shown; a failed fetch leaves the list empty, and so does any throw inside the `try`: a list is shown only from a reply whose `data` is an array without null or undefined elements |
| Home.ShownIsOrderedSelection | src/app/page.tsx:18-21 | the shown list is a prefix of an order-preserving selection of all upcoming exhibitions, whose length is their count; with three or fewer, all are shown |
| Home.LoadHomeShowsSelection | src/app/page.tsx:17-22 | a `{data: [...]}` reply shows exactly the first three upcoming exhibitions |
| Exhibitions.EndDate | src/app/exhibitions/page.tsx:145 | the end date is the start plus the duration in days while that is in the date range; it is invalid when the start is invalid or the sum leaves the range |
| Exhibitions.Classify | src/app/exhibitions/page.tsx:64-82 | upcoming before the start, ongoing from start to end inclusive, ended otherwise, each as an if-and-only-if over time values |
| Exhibitions.StatusColor | src/app/exhibitions/page.tsx:64-72 | `getStatusColor` renders the colour of the status `Classify` gives at that instant |
| Exhibitions.StatusText | src/app/exhibitions/page.tsx:74-82 | `getStatusText` renders the text of the status `Classify` gives at that instant |
| Exhibitions.BadgeAgrees | src/app/exhibitions/page.tsx:64-82 | read at one instant, the colour names a status exactly when the text names the same one |
| Exhibitions.BadgeDeterminesStatus | src/app/exhibitions/page.tsx:169-172 | the three colours and the three texts are distinct, so either determines the status |
| Exhibitions.InvalidStartIsEnded | src/app/exhibitions/page.tsx:64-72 | an invalid start date always reads as ended |
| Exhibitions.TotalBooths | src/app/exhibitions/page.tsx:146 | with non-negative quotas the total is at least each quota |
| Exhibitions.CardOf | src/app/exhibitions/page.tsx:144-197 | a card shows the colour of the status at the colour's clock reading, the text of the status at the text's clock reading, the end date, and the sum of both quotas |
| Exhibitions.BadgeSplitsAcrossStart | src/app/exhibitions/page.tsx:169-172 | when the two clock readings straddle the start, a card shows the "upcoming" colour beside the "ongoing" text |
| Exhibitions.DisplayedList | src/app/exhibitions/page.tsx:27-43 | the stored list is `response.data` when it is an array and the response is truthy, otherwise empty |
| Exhibitions.ErrorText | src/app/exhibitions/page.tsx:47-54 | the "server unreachable" text exactly for a TypeError mentioning "Failed to fetch", the offline text exactly for other errors while offline, the "load failed" text exactly for other errors while online |
| Exhibitions.FetchExhibitions | src/app/exhibitions/page.tsx:18-58 | loading ends; success stores the displayed list and clears the error; failure keeps the list and shows the error text |
| AdminCreate.NumberOrZero | src/app/admin/exhibitions/create/page.tsx:69 | a parsed number is kept, NaN becomes 0 |
| AdminCreate.HandleInputChange | src/app/admin/exhibitions/create/page.tsx:65-71 | only the named field changes; numeric fields get the parsed number, others the raw text |
| AdminCreate.NumericInputs | src/app/admin/exhibitions/create/page.tsx:69 | a fact about the form's field-name constants: the quota-or-duration coercion test holds for `durationDay` and both quota fields |
| AdminCreate.NotQuota | src/app/admin/exhibitions/create/page.tsx:69 | a fact about the form's field-name constants: no text field's name contains "Quota", so the coercion test fails for each |
| AdminCreate.InitialFormWellFormed | src/app/admin/exhibitions/create/page.tsx:15-24 | the initial form has every field with numbers in the numeric ones |
| AdminCreate.InputChangeKeepsWellFormed | src/app/admin/exhibitions/create/page.tsx:65-71 | input changes keep every field and keep numeric fields numeric |
| AdminCreate.AdminRedirect | src/app/admin/exhibitions/create/page.tsx:26-30 | a signed-in non-admin is sent to `/exhibitions`; nobody else is redirected |
| AdminCreate.TotalLine | src/app/admin/exhibitions/create/page.tsx:236-243 | the total line appears exactly when a quota is positive and shows their sum |
| AdminCreate.Submit | src/app/admin/exhibitions/create/page.tsx:32-63 | creation is requested exactly when the date is not before today and the token is truthy; the date and token errors otherwise; navigation exactly on a successful create; a failed create shows `error.message`, or the fallback text when that is empty |
| AdminCreate.TodayAccepted | src/app/admin/exhibitions/create/page.tsx:38-47 | an instant within today's local day, and an invalid date, passes the date check |
| AdminCreate.TodayPickedBehindUtcRejected | src/app/admin/exhibitions/create/page.tsx:38-47 | a start date parsed as UTC midnight before local midnight (today's date picked behind UTC) is rejected as past and nothing is created |
| Register.EditInput | src/app/register/page.tsx:85-93 | the typed field takes the typed value, every other text field and the role are kept |
| Register.SelectRole | src/app/register/page.tsx:219-238 | the member button sets the role to "member", the admin button to "admin", and nothing else changes |
| Register.RequestBody | src/app/register/page.tsx:41-48 | the request carries the form's fields without the confirmation, plus today's date |
| Register.RegisterReply | src/app/register/page.tsx:52-77 | registration succeeds exactly on an OK JSON reply with truthy `success` |
| Register.Submit | src/app/register/page.tsx:28-83 | mismatched passwords give the mismatch error and send nothing; otherwise the body is sent; navigation to login exactly on success; a failure shows the exception's message, or the fallback text when that is empty |
| Register.LoggedInRedirect | src/app/register/page.tsx:22-26 | a signed-in visitor is sent to `/`, nobody else |
| Register.RoleStaysChoice | src/app/register/page.tsx:11-18 | through any typing and clicking the role stays "member" or "admin", and stays "member" unless the admin button is clicked |
| Register.RejectedMessage | src/app/register/page.tsx:63-79 | a rejected registration shows the body's message or the fixed failure text |
| MyBooking.LoadedList | src/app/mybooking/page.tsx:30-38 | a list results exactly from an OK JSON reply that is not null; it is `data.data` when truthy and `[]` otherwise; a non-OK reply throws "Failed to fetch bookings" |
| MyBooking.LoadBookings | src/app/mybooking/page.tsx:25-48 | a request is sent exactly with a truthy token and user, carrying the bearer token; without one nothing changes; a loaded list is stored as `LoadedList` gives it; failures alert "Cannot load bookings" and keep the list |
| MyBooking.SignedOutSpins | src/app/mybooking/page.tsx:25-26 | signed out, the page stays on its spinner and sends nothing |
| MyBooking.LoadKeepsServerList | src/app/mybooking/page.tsx:36-38 | a `{data: [...]}` reply becomes the page's list unchanged |
| MyBooking.EditPath | src/app/mybooking/page.tsx:50-52 | the edit button leads to `/booking/edit?bookingId=` followed by the booking's id, which can be read back from the path |
| MyBooking.EditPathInjective | src/app/mybooking/page.tsx:50-52 | two bookings lead to the same edit page exactly when their ids print the same |
| MyBooking.Remaining | src/app/mybooking/page.tsx:67 | no remaining booking carries the deleted id as its `_id`, and every booking with another `_id` remains |
| MyBooking.Kept | src/app/mybooking/page.tsx:67 | a booking survives exactly when its `_id` is not that very string: numbers and missing ids survive |
| MyBooking.RemainingIsOrderedSelection | src/app/mybooking/page.tsx:67 | a delete keeps the other bookings in their order and removes exactly as many as carry that `_id` |
| MyBooking.RemainingMembers | src/app/mybooking/page.tsx:67 | a booking is in the list after a delete exactly when it was there before and its `_id` is not that id |
| MyBooking.HandleDelete | src/app/mybooking/page.tsx:54-75 | declining changes nothing and sends nothing; otherwise the DELETE is sent with the id, the id is marked while in flight and cleared after, an OK reply removes the booking with the success alert, anything else keeps the list with the failure alert |
| MyBooking.DeleteThroughButton | src/app/mybooking/page.tsx:54-75 | deleting through a booking's own button removes it and keeps every booking with another id |
| MyBooking.NumericIdSurvivesDelete | src/app/mybooking/page.tsx:67 | a booking whose `_id` is a number is never removed, because the strict comparison sees a string |
| MyBooking.DeletingWhileInFlight | src/app/mybooking/page.tsx:54-75 | the clicked booking's button is disabled while its delete is in flight, and no button is afterwards |
| MyBooking.ExhibitionName | src/app/mybooking/page.tsx:109-116 | the title is never nullish; an embedded exhibition's non-nullish name is the title; anything other than "Unknown Exhibition" is that name |
| MyBooking.ExhibitionDate | src/app/mybooking/page.tsx:110-115 | an embedded exhibition with a truthy start date shows its locale date, and every other booking shows "No date" |
| MyBooking.BookedBy | src/app/mybooking/page.tsx:122-127 | name and email are never nullish; "N/A" for both without an embedded user; with one, each is the user's value when not nullish and "N/A" otherwise |
| MyBooking.BookedByLine | src/app/mybooking/page.tsx:147-151 | the "booked by" line appears exactly for an admin viewer |
| MyBooking.Capitalize | src/app/mybooking/page.tsx:119 | only the first letter changes, to its upper case |
| MyBooking.CapitalizeInverse | src/app/mybooking/page.tsx:119 | a capitalized string is determined by the original's tail and upper-cased first letter |
| MyBooking.BoothLabel | src/app/mybooking/page.tsx:143 | the Thai small label exactly for "Small" (or itself), the Thai big label exactly for "Big" (or itself), and any other name unchanged |
| MyBooking.BoothTypeShown | src/app/mybooking/page.tsx:118-120 | a falsy booth type shows "N/A"; rendering throws exactly for a truthy non-string |
| MyBooking.SmallBoothShown | src/app/mybooking/page.tsx:118-143 | exactly "small", "Small" and the Thai label itself display as the Thai small label |
| MyBooking.BigBoothShown | src/app/mybooking/page.tsx:118-143 | exactly "big", "Big" and the Thai label itself display as the Thai big label |
| MyBooking.OtherBoothShown | src/app/mybooking/page.tsx:118-143 | every other booth type string is shown capitalized with its tail untouched |

## Left out

- React scheduling, effect ordering and the interleaving of concurrent async calls. Each handler is modelled as one atomic run. A login racing a logout is therefore not modelled.
- `console` logging. Alerts, router pushes and sent requests are returned as values and not performed.
- The request bodies and headers of the login, `/auth/me` and register calls beyond what the model returns. The backend itself is not modelled.
- `JSON.parse` and `JSON.stringify`, `new Date(...)`, `toLocaleDateString`, `parseInt` and `toISOString` are parameters. The one assumption made about JSON is the round trip in `Js.Faithful`.
- Numbers are mathematical integers. Fractional ratings, quotas and durations, `NaN` and `Infinity` are not represented. `ToString` renders integers only.
- Case mapping covers ASCII letters only. Strings are sequences of Unicode scalar values, while JavaScript counts UTF-16 code units, so `charAt` and `slice` differ from the source for characters outside the Basic Multilingual Plane.
- Built-in properties of strings and arrays (`length`, methods) are not readable through `Js.Get`.
- The `typeof window !== 'undefined'` guard in `AuthProvider` is not modelled; initialisation is assumed to run in the browser.
- Rendering markup, styles and images are not modelled; each page's rendered output is modelled only for the texts and links listed above.
- The thin API wrappers in `src/lib` and `src/libs` and the Redux store are not part of this model, except `getCurrentUser`.
- MyBooking.HandleDelete: requires an array list without null elements. Rendering reads `booking.exhibition` of every element, so no delete button exists otherwise. A state updater throwing during render is not modelled.
- MyBooking.LoadBookings: the page state holds the stored value as is. A non-array `data.data` then renders the "no bookings" message or fails while rendering, and neither is modelled.
- ApiUtils.MergeHeaders: supplied headers are a plain object with exact-case names. A `Headers` instance (whose spread is `{}`, so its headers vanish) or an array of pairs (which spreads as index keys) as `options.headers` is not representable, and header names are not case-folded.
- AdminCreate.TodayAccepted: holds for an instant within the local day. The start instant is a parameter, so how the date string is parsed is not modelled; the UTC-midnight case is shown by `AdminCreate.TodayPickedBehindUtcRejected`.
- Exhibitions.TotalBooths: states only the bound. The exact sum is stated on `Exhibitions.CardOf`.
- AuthProvider.InitializeAuth: its ensures states only that loading ends. The three cases are the lemmas `InitializeRestores`, `InitializeCorruptIsLogout` and `InitializeWithoutPair`.
- AuthProvider.RefreshUser: likewise. Its cases are `RefreshWithoutToken`, `RefreshSuccess` and `RefreshFailureIsLogout`.
- Home.FilterUpcoming: takes one clock reading for the whole filter. The source calls `new Date()` once per element, so a list filtered across a start instant could split differently. The exhibition list's two badge readings are modelled (`Exhibitions.CardOf`).
- The home page card's booth total (`src/app/page.tsx`, line 105) is the same sum as on the list page. It is stated once, on `Exhibitions.CardOf`, and not again over raw JSON values, where `+` could also concatenate strings.
- Ratings.Reduce: the source copies the map before changing it. On immutable Dafny values the input cannot be mutated at all, so that property holds by construction and has no separate lemma.

=== FILE: admin_create.dfy ===
/** The admin form for a new exhibition, `src/app/admin/exhibitions/create/page.tsx`. */
module AdminCreate {
  import opened Wrappers
  import opened Js
  import opened Time
  import Text

  /** A form field holds the raw string typed in, or a number for the numeric fields. */
  datatype FieldValue = Text(s: string) | Number(n: int)

  /** The form state, keyed by input `name`; `handleInputChange` may write any name. */
  type Form = map<string, FieldValue>

  /** The inputs whose value is coerced to a number. */
  predicate NumericField(name: string) {
    Text.Contains(name, "Quota") || name == "durationDay"
  }

  const InitialForm: Form := map[
    "name" := Text(""), "description" := Text(""), "venue" := Text(""), "startDate" := Text(""),
    "durationDay" := Number(1), "smallBoothQuota" := Number(0), "bigBoothQuota" := Number(0),
    "posterPicture" := Text("")]

  /** `parseInt(value) || 0`, where `parseInt` yields None for NaN. */
  function NumberOrZero(parsed: Option<int>): (n: int)
    ensures parsed.Some? ==> n == parsed.value
    ensures parsed.None? ==> n == 0
  {
    match parsed
    case Some(v) => if v != 0 then v else 0
    case None => 0
  }

  /** `handleInputChange` for input `name` receiving `value`; `parseInt` is left uninterpreted. */
  function HandleInputChange(form: Form, name: string, value: string, parseInt: string -> Option<int>): (r: Form)
    ensures r.Keys == form.Keys + {name}
    ensures NumericField(name) ==> r[name] == Number(NumberOrZero(parseInt(value)))
    ensures !NumericField(name) ==> r[name] == Text(value)
    ensures forall k :: k in form && k != name ==> r[k] == form[k]
  {
    form[name := if NumericField(name) then Number(NumberOrZero(parseInt(value))) else Text(value)]
  }

  /** Every field the form starts with is still there, and every numeric field holds a number. */
  predicate WellFormed(form: Form) {
    && InitialForm.Keys <= form.Keys
    && form["durationDay"].Number? && form["smallBoothQuota"].Number? && form["bigBoothQuota"].Number?
    && forall k :: k in form && NumericField(k) ==> form[k].Number?
  }

  /** The three numeric inputs of the page are the ones `NumericField` selects. */
  lemma NumericInputs()
    ensures NumericField("durationDay") && NumericField("smallBoothQuota") && NumericField("bigBoothQuota")
  {
    assert Text.OccursAt("smallBoothQuota", "Quota", 10);
    assert Text.OccursAt("bigBoothQuota", "Quota", 8);
  }

  /** A string without a capital Q cannot contain "Quota". */
  lemma NoQuotaWithoutQ(name: string)
    requires forall j :: 0 <= j < |name| ==> name[j] != 'Q'
    ensures !Text.Contains(name, "Quota")
  {
    forall i: nat | i <= |name| ensures !Text.OccursAt(name, "Quota", i) {
      if i + 5 <= |name| {
        assert name[i..i + 5][0] == name[i];
      }
    }
  }

  /** No other field name contains "Quota". */
  lemma NotQuota(name: string)
    requires name in {"name", "description", "venue", "startDate", "posterPicture"}
    ensures !Text.Contains(name, "Quota")
  {
    NoQuotaWithoutQ(name);
  }

  lemma InitialFormWellFormed()
    ensures WellFormed(InitialForm)
  {
    NumericInputs();
    forall k | k in InitialForm && NumericField(k) ensures InitialForm[k].Number? {
      if k in {"name", "description", "venue", "startDate", "posterPicture"} {
        NotQuota(k);
      }
    }
  }

  /** Input changes keep the form well formed. */
  lemma InputChangeKeepsWellFormed(form: Form, name: string, value: string, parseInt: string -> Option<int>)
    requires WellFormed(form)
    ensures WellFormed(HandleInputChange(form, name, value, parseInt))
  {
    NumericInputs();
  }

  /** `user && user.role !== 'admin'`: a signed-in non-admin is sent to the list. */
  function AdminRedirect(user: JsValue): (target: Option<string>)
    ensures target.Some? <==> Truthy(user) && Get(user, "role") != Str("admin")
    ensures target.Some? ==> target.value == "/exhibitions"
  {
    if Truthy(user) && Get(user, "role") != Str("admin") then Some("/exhibitions") else None
  }

  /** The total line under the quota inputs: shown when either quota is positive. */
  function TotalLine(form: Form): (total: Option<int>)
    requires WellFormed(form)
    ensures total.Some? <==> form["smallBoothQuota"].n > 0 || form["bigBoothQuota"].n > 0
    ensures total.Some? ==> total.value == form["smallBoothQuota"].n + form["bigBoothQuota"].n
  {
    var small := form["smallBoothQuota"].n;
    var big := form["bigBoothQuota"].n;
    if small > 0 || big > 0 then Some(small + big) else None
  }

  const PastDateError := "วันเริ่มงานต้องไม่เป็นวันที่ผ่านมาแล้ว"
  const MissingTokenError := "ไม่พบ token การยืนยันตัวตน"
  const CreateFailedError := "ไม่สามารถสร้างนิทรรศการได้"

  /** What a submission leaves behind: the error shown, whether `createExhibition` was called, where
      the router was sent, and the loading flag. */
  datatype Submission = Submission(error: Option<string>, createCalled: bool, navigate: Option<string>, loading: bool)

  /** `handleSubmit`: `start` is `new Date(formData.startDate)`, `midnight` is today at 00:00 local time,
      `create` is what `createExhibition` resolved or rejected with. */
  function Submit(start: Instant, midnight: int, token: JsValue, create: Result<JsValue, Thrown>): (r: Submission)
    ensures !r.loading
    ensures r.createCalled <==> !Before(start, Valid(midnight)) && Truthy(token)
    ensures Before(start, Valid(midnight)) ==> r.error == Some(PastDateError)
    ensures !Before(start, Valid(midnight)) && !Truthy(token) ==> r.error == Some(MissingTokenError)
    ensures r.navigate.Some? <==> r.createCalled && create.Success?
    ensures r.navigate.Some? ==> r.navigate.value == "/exhibitions" && r.error.None?
    ensures r.createCalled && create.Failure? ==>
              r.error == Some(if create.error.message != "" then create.error.message else CreateFailedError)
  {
    if Before(start, Valid(midnight)) then Submission(Some(PastDateError), false, None, false)
    else if !Truthy(token) then Submission(Some(MissingTokenError), false, None, false)
    else match create
      case Success(_) => Submission(None, true, Some("/exhibitions"), false)
      case Failure(e) =>
        Submission(Some(if e.message != "" then e.message else CreateFailedError), true, None, false)
  }

  /** A start instant within today's local day passes the date check; an invalid date passes it too. */
  lemma TodayAccepted(start: int, midnight: int, token: JsValue, create: Result<JsValue, Thrown>)
    requires midnight <= start < midnight + DayMs
    ensures Submit(Valid(start), midnight, token, create).createCalled <==> Truthy(token)
    ensures Submit(Invalid, midnight, token, create).createCalled <==> Truthy(token)
  {
  }

  /** `new Date("YYYY-MM-DD")` is UTC midnight of that date. Behind UTC, local midnight of the same
      date comes `offset` milliseconds later, so picking today's date in the date input is rejected
      as a past date and nothing is created. */
  lemma TodayPickedBehindUtcRejected(utcMidnight: int, offset: int, token: JsValue, create: Result<JsValue, Thrown>)
    requires 0 < offset < DayMs
    ensures var r := Submit(Valid(utcMidnight), utcMidnight + offset, token, create);
            r.error == Some(PastDateError) && !r.createCalled
  {
  }
}

=== FILE: api_utils.dfy ===
/** Request helpers of `src/libs/apiUtils.ts`: headers, URL resolution, header merging, error messages. */
module ApiUtils {
  import opened Wrappers
  import opened Js
  import opened Http
  import Text

  type Headers = map<string, string>

  const DefaultBaseUrl := "http://localhost:5000/api/v1"

  /** `API_BASE_URL`: `NEXT_PUBLIC_BACKEND_URL || 'http://localhost:5000/api/v1'`. */
  function ApiBaseUrl(env: Option<string>): (url: string)
    ensures env.Some? && env.value != "" ==> url == env.value
    ensures env.None? || env.value == "" ==> url == DefaultBaseUrl
  {
    if env.Some? && env.value != "" then env.value else DefaultBaseUrl
  }

  /** `getAuthHeaders(token)`. */
  function AuthHeaders(token: Option<string>): (h: Headers)
    ensures "Content-Type" in h && h["Content-Type"] == "application/json"
    ensures "Authorization" in h <==> token.Some? && token.value != ""
    ensures "Authorization" in h ==> h["Authorization"] == "Bearer " + token.value
    ensures h.Keys <= {"Content-Type", "Authorization"}
  {
    var headers := map["Content-Type" := "application/json"];
    if token.Some? && token.value != "" then headers["Authorization" := "Bearer " + token.value] else headers
  }

  /** The URL `apiRequest` fetches: an absolute `http…` endpoint as is, otherwise appended to the base. */
  function ResolveUrl(base: string, endpoint: string): (url: string)
    ensures Text.StartsWith(endpoint, "http") ==> url == endpoint
    ensures !Text.StartsWith(endpoint, "http") ==> url == base + endpoint
  {
    if Text.StartsWith(endpoint, "http") then endpoint else base + endpoint
  }

  /** `{...defaults, ...supplied}`: a later spread wins on a clash. */
  function MergeHeaders(defaults: Headers, supplied: Headers): (h: Headers)
    ensures h.Keys == defaults.Keys + supplied.Keys
    ensures forall k :: k in supplied ==> h[k] == supplied[k]
    ensures forall k :: k in defaults && k !in supplied ==> h[k] == defaults[k]
  {
    defaults + supplied
  }

  /** The exception `apiRequest` throws for a non-OK response. An unparsable body stands for
      `{message: statusText}`; a body of `null` makes the `.message` read itself throw. */
  function ResponseError(status: nat, statusText: string, body: Body): (e: Thrown)
    ensures e.name == TypeError <==> body.Json? && Nullish(body.value)
    ensures e.name != TypeError ==> e.name == Error
    ensures body.NotJson? ==> e.message == if statusText != "" then statusText else "HTTP Error: " + Text.Decimal(status)
    ensures body.Json? && !Nullish(body.value) && !Truthy(Get(body.value, "message"))
            ==> e.message == "HTTP Error: " + Text.Decimal(status)
    ensures body.Json? && Truthy(Get(body.value, "message")) ==> e.message == ToString(Get(body.value, "message"))
  {
    var errorData := match body case Json(v) => v case NotJson(_) => Obj(map["message" := Str(statusText)]);
    match Prop(errorData, "message")
    case Failure(typeError) => typeError
    case Success(message) => NewError(ToString(Or(message, Str("HTTP Error: " + Text.Decimal(status)))))
  }

  /** A request as `fetch` receives it. */
  datatype Sent = Sent(url: string, headers: Headers)

  /** `apiRequest(endpoint, {headers}, token)` given the reply: the request sent and what it returns. */
  function ApiRequest(base: string, endpoint: string, supplied: Headers, token: Option<string>, reply: Fetched)
    : (r: (Sent, Result<JsValue, Thrown>))
    ensures r.0 == Sent(ResolveUrl(base, endpoint), MergeHeaders(AuthHeaders(token), supplied))
    ensures r.1.Success? <==> reply.Response? && reply.ok && reply.body.Json?
    ensures r.1.Success? ==> r.1.value == reply.body.value
    ensures reply.Response? && !reply.ok ==> r.1 == Failure(ResponseError(reply.status, reply.statusText, reply.body))
  {
    var sent := Sent(ResolveUrl(base, endpoint), MergeHeaders(AuthHeaders(token), supplied));
    match reply
    case NetworkFailure(m) => (sent, Failure(FetchError(m)))
    case Response(ok, status, statusText, body) =>
      if !ok then (sent, Failure(ResponseError(status, statusText, body)))
      else (sent, ReadJson(body))
  }

  /** Anything that can be thrown: an `Error` instance, or some other value. */
  datatype Caught = ErrorInstance(error: Thrown) | OtherValue(value: JsValue)

  /** `handleApiError(error)`: it never returns; this is the exception it throws. */
  function HandleApiError(x: Caught): (e: Thrown)
    ensures x.ErrorInstance? ==> e == x.error
    ensures x.OtherValue? ==> e == NewError("An unexpected error occurred")
  {
    match x
    case ErrorInstance(error) => error
    case OtherValue(_) => NewError("An unexpected error occurred")
  }

  // ---------------------------------------------------------------------------------------------
  // Properties.

  /** A non-empty string message in the body is the error message. */
  lemma BodyMessageWins(status: nat, statusText: string, fields: map<string, JsValue>, message: string)
    requires "message" in fields && fields["message"] == Str(message) && message != ""
    ensures ResponseError(status, statusText, Json(Obj(fields))) == NewError(message)
  {
  }

  /** Without a message the error reads `HTTP Error: <status>`, and the status can be read back from it. */
  lemma StatusMessage(status: nat, statusText: string, fields: map<string, JsValue>)
    requires "message" !in fields || !Truthy(fields["message"])
    ensures var e := ResponseError(status, statusText, Json(Obj(fields)));
            && e.message == "HTTP Error: " + Text.Decimal(status)
            && Text.DigitsValue(e.message[12..]) == status
  {
    var e := ResponseError(status, statusText, Json(Obj(fields)));
    assert e.message[12..] == Text.Decimal(status);
    Text.DecimalRoundTrip(status);
  }

  /** An unparsable body contributes the status text, unless that is empty. */
  lemma UnparsableBodyUsesStatusText(status: nat, statusText: string, m: string)
    ensures ResponseError(status, statusText, NotJson(m))
              == NewError(if statusText != "" then statusText else "HTTP Error: " + Text.Decimal(status))
  {
  }

  /** With an `http…` base, a resolved URL is absolute, so resolving it again changes nothing. */
  lemma ResolveIdempotent(base: string, endpoint: string)
    requires Text.StartsWith(base, "http")
    ensures Text.StartsWith(ResolveUrl(base, endpoint), "http")
    ensures ResolveUrl(base, ResolveUrl(base, endpoint)) == ResolveUrl(base, endpoint)
  {
    if !Text.StartsWith(endpoint, "http") {
      assert (base + endpoint)[..4] == base[..4];
    }
  }

  /** Merging supplied headers over `getAuthHeaders` lets the caller replace the bearer token. */
  lemma SuppliedAuthorizationWins(token: Option<string>, supplied: Headers)
    requires "Authorization" in supplied
    ensures MergeHeaders(AuthHeaders(token), supplied)["Authorization"] == supplied["Authorization"]
  {
  }
}

=== FILE: auth_context.dfy ===
/** The session manager of `src/contexts/AuthContext.tsx`: restore at mount, the login protocol
    (login reply, `/auth/me`, fallback, normalisation, commit) and logout. */
module AuthContext {
  import opened Wrappers
  import opened Js
  import opened Http
  import opened Storage
  import opened SessionState

  /** Storage holds a truthy `token` and a truthy `user`: the condition for restoring. */
  predicate StoredPair(s: Store) {
    Present(GetItem(s, TokenKey)) && Present(GetItem(s, UserKey))
  }

  /** `checkAuth`, run once at mount. Any successful parse is trusted, including `null`; a parse failure
      removes both keys without touching the state; a missing or empty key changes nothing. */
  function Restore(c: Client, codec: JsonCodec): (r: Client)
    ensures !r.session.loading
    ensures StoredPair(c.store) && codec.parse(c.store[UserKey]).Some? ==>
              && r.session.token == Str(c.store[TokenKey])
              && r.session.user == codec.parse(c.store[UserKey]).value
              && r.store == c.store
    ensures StoredPair(c.store) && codec.parse(c.store[UserKey]).None? ==>
              && r.store == c.store - {TokenKey, UserKey}
              && r.session.user == c.session.user && r.session.token == c.session.token
    ensures !StoredPair(c.store) ==>
              r.store == c.store && r.session.user == c.session.user && r.session.token == c.session.token
  {
    var storedToken := GetItem(c.store, TokenKey);
    var storedUser := GetItem(c.store, UserKey);
    var restored :=
      if Present(storedToken) && Present(storedUser) then
        match codec.parse(storedUser.value)
        case Some(userData) => Client(c.session.(token := Str(storedToken.value), user := userData), c.store)
        case None => Client(c.session, c.store - {TokenKey, UserKey})
      else c;
    restored.(session := restored.session.(loading := false))
  }

  /** The login reply up to the `data.success && data.token` check: the parsed body when the check
      passes, otherwise the exception `login` rejects with. */
  function AcceptLogin(reply: Fetched): (r: Result<JsValue, Thrown>)
    ensures r.Success? <==>
              && reply.Response? && reply.ok && reply.body.Json?
              && Truthy(Get(reply.body.value, "success")) && Truthy(Get(reply.body.value, "token"))
    ensures r.Success? ==> r.value == reply.body.value && r.value.Obj?
  {
    match reply
    case NetworkFailure(m) => Failure(FetchError(m))
    case Response(ok, _, _, body) =>
      if !ok then
        var errorData :- ReadJson(body);
        var message :- Prop(errorData, "message");
        Failure(NewError(ToString(Or(message, Str("Login failed")))))
      else
        var data :- ReadJson(body);
        var success :- Prop(data, "success");
        if Truthy(success) && Truthy(Get(data, "token")) then Success(data)
        else Failure(NewError("Invalid response from server"))
  }

  /** A raw profile carries an identifier under `_id` or `id`. */
  predicate HasId(p: JsValue) {
    Truthy(Get(p, "_id")) || Truthy(Get(p, "id"))
  }

  /** The identity the login reply itself carries: `data.data || data.user || {_id, name, email}`. */
  function Fallback(data: JsValue): (r: JsValue)
    ensures Truthy(r)
    ensures Truthy(Get(data, "data")) ==> r == Get(data, "data")
    ensures !Truthy(Get(data, "data")) && Truthy(Get(data, "user")) ==> r == Get(data, "user")
    ensures !Truthy(Get(data, "data")) && !Truthy(Get(data, "user")) ==>
              r.Obj? && r.fields.Keys == {"_id", "name", "email"}
              && Get(r, "_id") == Or(Get(data, "_id"), Get(data, "id"))
              && Get(r, "name") == Get(data, "name") && Get(r, "email") == Get(data, "email")
              && Get(r, "role").Undefined?
  {
    Or(Get(data, "data"),
       Or(Get(data, "user"),
          Obj(map["_id" := Or(Get(data, "_id"), Get(data, "id")),
                  "name" := Get(data, "name"),
                  "email" := Get(data, "email")])))
  }

  /** The `try` block around `/auth/me`: the profile that reaches the commit inside it, or the exception
      that hands control to the fallback. */
  function MeProfile(data: JsValue, me: Fetched): (r: Result<JsValue, Thrown>)
    ensures r.Success? ==> Truthy(r.value) && HasId(r.value)
  {
    match me
    case NetworkFailure(m) => Failure(FetchError(m))
    case Response(ok, _, _, body) =>
      if !ok then Failure(NewError("Failed to get user info"))
      else
        var info :- ReadJson(body);
        var success :- Prop(info, "success");
        var complete := if Truthy(success) && Truthy(Get(info, "data")) then Get(info, "data") else Fallback(data);
        if Truthy(complete) && HasId(complete) then Success(complete)
        else Failure(NewError("Invalid user data received from /auth/me"))
  }

  /** The four field names of a normalised user. */
  const UserFields: set<string> := {"_id", "name", "email", "role"}

  /** The normalised user object: `_id` from `_id` or else `id`, plus `name`, `email`, `role`. */
  function Normalize(p: JsValue): (r: JsValue)
    requires !Nullish(p)
    ensures r.Obj? && r.fields.Keys == UserFields
    ensures Get(r, "_id") == Or(Get(p, "_id"), Get(p, "id"))
    ensures Get(r, "name") == Get(p, "name") && Get(r, "email") == Get(p, "email")
    ensures Get(r, "role") == Get(p, "role")
  {
    Obj(map["_id" := Or(Get(p, "_id"), Get(p, "id")),
            "name" := Get(p, "name"),
            "email" := Get(p, "email"),
            "role" := Get(p, "role")])
  }

  /** The user a successful login commits: the `/auth/me` profile when the `try` block gets that far,
      the login reply's own identity otherwise. */
  function LoginUser(data: JsValue, me: Fetched): (u: JsValue)
    ensures u.Obj? && u.fields.Keys == UserFields
  {
    match MeProfile(data, me)
    case Success(p) => Normalize(p)
    case Failure(_) => Normalize(Fallback(data))
  }

  datatype LoginResult = LoginResult(client: Client, outcome: Outcome<Thrown>)

  /** `login(email, password)` given the backend's replies to `/auth/login` and `/auth/me`. */
  function Login(c: Client, codec: JsonCodec, loginReply: Fetched, meReply: Fetched): (r: LoginResult)
    ensures r.outcome.Fail? ==> r.client == c
    ensures r.outcome.Pass? <==> AcceptLogin(loginReply).Success?
    ensures r.outcome.Pass? ==>
              && r.client.session.token == Get(loginReply.body.value, "token")
              && r.client.session.user == LoginUser(loginReply.body.value, meReply)
              && r.client.session.user.Obj? && r.client.session.user.fields.Keys == UserFields
              && r.client.session.loading == c.session.loading
              && Persisted(r.client, codec)
              && OtherKeysKept(c.store, r.client.store)
  {
    match AcceptLogin(loginReply)
    case Failure(e) => LoginResult(c, Fail(e))
    case Success(data) =>
      LoginResult(Commit(c, LoginUser(data, meReply), Get(data, "token"), codec), Pass)
  }

  /** `logout()`: no backend call, just the local clear. */
  function Logout(c: Client): (r: Client)
    ensures r.session.user.Null? && r.session.token.Null?
    ensures TokenKey !in r.store && UserKey !in r.store
    ensures OtherKeysKept(c.store, r.store)
  {
    SignOut(c)
  }

  // ---------------------------------------------------------------------------------------------
  // Properties of the protocol.

  /** A non-OK login reply with a JSON object body rejects with the body's message, or "Login failed"
      when it has none, and commits nothing. */
  lemma LoginRejectedMessage(c: Client, codec: JsonCodec, loginReply: Fetched, meReply: Fetched)
    requires loginReply.Response? && !loginReply.ok && loginReply.body.Json? && loginReply.body.value.Obj?
    ensures var r := Login(c, codec, loginReply, meReply);
            var message := Get(loginReply.body.value, "message");
            && r.client == c
            && r.outcome == Fail(NewError(if Truthy(message) then ToString(message) else "Login failed"))
  {
  }

  /** An OK reply lacking a truthy `success` or `token` rejects with "Invalid response from server". */
  lemma LoginInvalidResponse(c: Client, codec: JsonCodec, loginReply: Fetched, meReply: Fetched)
    requires loginReply.Response? && loginReply.ok && loginReply.body.Json? && loginReply.body.value.Obj?
    requires !Truthy(Get(loginReply.body.value, "success")) || !Truthy(Get(loginReply.body.value, "token"))
    ensures Login(c, codec, loginReply, meReply) == LoginResult(c, Fail(NewError("Invalid response from server")))
  {
  }

  /** When `/auth/me` answers with `success` and a profile carrying an id, that profile (and its role)
      is what is committed. */
  lemma {:induction false} LoginUsesMeProfile(data: JsValue, me: Fetched)
    requires me.Response? && me.ok && me.body.Json?
    requires Truthy(Get(me.body.value, "success")) && Truthy(Get(me.body.value, "data"))
    requires HasId(Get(me.body.value, "data"))
    ensures LoginUser(data, me) == Normalize(Get(me.body.value, "data"))
    ensures Get(LoginUser(data, me), "role") == Get(Get(me.body.value, "data"), "role")
  {
    assert MeProfile(data, me) == Success(Get(me.body.value, "data"));
  }

  /** Whenever `/auth/me` does not deliver a profile with an id (network error, non-OK, unparsable,
      no `success`/`data`, or no id), the committed user is the login reply's own identity. */
  lemma {:induction false} LoginFallsBack(data: JsValue, me: Fetched)
    requires !(me.Response? && me.ok && me.body.Json?
               && Truthy(Get(me.body.value, "success")) && Truthy(Get(me.body.value, "data"))
               && HasId(Get(me.body.value, "data")))
    ensures LoginUser(data, me) == Normalize(Fallback(data))
  {
    match MeProfile(data, me)
    case Success(p) =>
      assert p == Fallback(data);
    case Failure(_) =>
  }

  /** Once the login reply has `success` and `token`, login commits whatever `/auth/me` does, even when
      no identifier is available anywhere: the committed `_id` is then `undefined`. */
  lemma LoginCommitsWithoutId(c: Client, codec: JsonCodec, token: string, meReply: Fetched)
    requires token != ""
    requires meReply.NetworkFailure?
    ensures var data := Obj(map["success" := Bool(true), "token" := Str(token)]);
            var r := Login(c, codec, Response(true, 200, "OK", Json(data)), meReply);
            && r.outcome.Pass?
            && r.client.session.token == Str(token)
            && Get(r.client.session.user, "_id").Undefined?
  {
    var data := Obj(map["success" := Bool(true), "token" := Str(token)]);
    var reply := Response(true, 200, "OK", Json(data));
    assert Get(data, "success") == Bool(true) && Get(data, "token") == Str(token);
    assert AcceptLogin(reply) == Success(data);
    LoginFallsBack(data, meReply);
    var f := Fallback(data);
    assert Get(data, "data") == Undefined && Get(data, "user") == Undefined;
    assert Get(data, "_id") == Undefined && Get(data, "id") == Undefined;
    assert f == Obj(map["_id" := Undefined, "name" := Undefined, "email" := Undefined]);
    assert Get(Normalize(f), "_id") == Undefined;
  }

  /** After a committed login and a restart, restoring from the storage it left behind yields the
      committed token as a string and the committed user as JSON sees it. A token whose string is empty
      (such as `[]`) is stored as `""`, which restoring does not see: the restart is signed out. */
  lemma LoginThenRestore(c: Client, codec: JsonCodec, loginReply: Fetched, meReply: Fetched)
    requires Faithful(codec)
    requires Login(c, codec, loginReply, meReply).outcome.Pass?
    ensures var committed := Login(c, codec, loginReply, meReply).client;
            var t := ToString(committed.session.token);
            t != "" ==> Restore(Mount(committed.store), codec).session
                          == Session(JsonView(committed.session.user), Str(t), false)
    ensures var committed := Login(c, codec, loginReply, meReply).client;
            ToString(committed.session.token) == "" ==> Restore(Mount(committed.store), codec).session
                                                         == Session(Null, Null, false)
  {
    var committed := Login(c, codec, loginReply, meReply).client;
    var u := committed.session.user;
    assert committed.store[UserKey] == codec.stringify(u);
    assert codec.parse(codec.stringify(u)) == Some(JsonView(u));
  }

  /** A login reply whose token is an empty array is accepted (arrays are truthy), yet the restart after
      it is signed out. */
  lemma EmptyArrayTokenIsLostOnRestart(c: Client, codec: JsonCodec, meReply: Fetched)
    requires Faithful(codec)
    ensures var reply := Response(true, 200, "OK", Json(Obj(map["success" := Bool(true), "token" := Arr([])])));
            var r := Login(c, codec, reply, meReply);
            && r.outcome.Pass? && r.client.session.token == Arr([])
            && Restore(Mount(r.client.store), codec).session == Session(Null, Null, false)
  {
    var data := Obj(map["success" := Bool(true), "token" := Arr([])]);
    var reply := Response(true, 200, "OK", Json(data));
    assert Get(data, "success") == Bool(true) && Get(data, "token") == Arr([]);
    assert AcceptLogin(reply) == Success(data);
    assert ToString(Arr([])) == "";
    LoginThenRestore(c, codec, reply, meReply);
  }

  /** After logout, restoring finds nothing and leaves the session empty. */
  lemma LogoutThenRestore(c: Client, codec: JsonCodec)
    ensures var r := Restore(Mount(Logout(c).store), codec);
            r.session == Session(Null, Null, false) && r.store == Logout(c).store
  {
  }

  /** A stored `user` of `"null"` parses, so the token is restored with a null user. */
  lemma RestoreTrustsNull(c: Client, codec: JsonCodec)
    requires StoredPair(c.store) && codec.parse(c.store[UserKey]) == Some(Null)
    ensures Restore(c, codec).session.token == Str(c.store[TokenKey])
    ensures Restore(c, codec).session.user.Null?
  {
  }

  /** The sign-in scenario: `/auth/login` answers `{success, token: "T1"}` and `/auth/me` answers with
      Ann's admin profile. */
  lemma AdminLoginScenario(c: Client, codec: JsonCodec)
    ensures var loginReply := Response(true, 200, "OK", Json(Obj(map["success" := Bool(true), "token" := Str("T1")])));
            var profile := Obj(map["_id" := Str("u1"), "name" := Str("Ann"), "email" := Str("a@x.com"),
                                   "role" := Str("admin")]);
            var meReply := Response(true, 200, "OK", Json(Obj(map["success" := Bool(true), "data" := profile])));
            var r := Login(c, codec, loginReply, meReply);
            r.outcome.Pass? && r.client.session.token == Str("T1") && r.client.session.user == profile
  {
    var profile := Obj(map["_id" := Str("u1"), "name" := Str("Ann"), "email" := Str("a@x.com"),
                           "role" := Str("admin")]);
    var meReply := Response(true, 200, "OK", Json(Obj(map["success" := Bool(true), "data" := profile])));
    var data := Obj(map["success" := Bool(true), "token" := Str("T1")]);
    var loginReply := Response(true, 200, "OK", Json(data));
    assert AcceptLogin(loginReply) == Success(data) by {
      assert Get(data, "success") == Bool(true) && Get(data, "token") == Str("T1");
    }
    assert LoginUser(data, meReply) == profile by {
      assert Get(meReply.body.value, "data") == profile;
      LoginUsesMeProfile(data, meReply);
      AdminProfileIsNormal();
    }
  }

  /** Ann's admin profile is already in normal form. */
  lemma AdminProfileIsNormal()
    ensures var profile := Obj(map["_id" := Str("u1"), "name" := Str("Ann"), "email" := Str("a@x.com"),
                                   "role" := Str("admin")]);
            Normalize(profile) == profile
  {
    var profile := Obj(map["_id" := Str("u1"), "name" := Str("Ann"), "email" := Str("a@x.com"),
                           "role" := Str("admin")]);
    assert Get(profile, "_id") == Str("u1");
    assert Normalize(profile).fields == profile.fields;
  }
}

=== FILE: auth_provider.dfy ===
/** The second session manager, `src/providers/AuthProvider.tsx`: the caller hands `login` a token and a
    user; `initializeAuth` restores at mount; `refreshUser` re-reads the profile from `/auth/me`. */
module AuthProvider {
  import opened Wrappers
  import opened Js
  import opened Http
  import opened Storage
  import opened SessionState

  /** `login(token, userData)`: both in memory, then `token` and `JSON.stringify(userData)` in storage. */
  function Login(c: Client, token: string, user: JsValue, codec: JsonCodec): (r: Client)
    ensures r.session.token == Str(token) && r.session.user == user
    ensures r.session.loading == c.session.loading
    ensures GetItem(r.store, TokenKey) == Some(token)
    ensures GetItem(r.store, UserKey) == Some(codec.stringify(user))
    ensures OtherKeysKept(c.store, r.store)
  {
    Commit(c, user, Str(token), codec)
  }

  /** `logout()`. */
  function Logout(c: Client): (r: Client)
    ensures r.session.user.Null? && r.session.token.Null?
    ensures r.session.loading == c.session.loading
    ensures GetItem(r.store, TokenKey).None? && GetItem(r.store, UserKey).None?
    ensures OtherKeysKept(c.store, r.store)
  {
    SignOut(c)
  }

  /** `initializeAuth`: with a truthy token and user, set the token and the parsed user; a parse
      failure runs `logout()`, whose `setToken(null)` supersedes the earlier `setToken`. */
  function InitializeAuth(c: Client, codec: JsonCodec): (r: Client)
    ensures !r.session.loading
  {
    var storedToken := GetItem(c.store, TokenKey);
    var storedUser := GetItem(c.store, UserKey);
    var initialized :=
      if Present(storedToken) && Present(storedUser) then
        match codec.parse(storedUser.value)
        case Some(userData) => Client(c.session.(token := Str(storedToken.value), user := userData), c.store)
        case None => Logout(c)
      else c;
    initialized.(session := initialized.session.(loading := false))
  }

  /** The reply of `getCurrentUser(token)`: the parsed body, or the exception it throws (network
      failure, a non-OK status, an unparsable body). */
  function GetCurrentUser(reply: Fetched): (r: Result<JsValue, Thrown>)
    ensures r.Success? <==> reply.Response? && reply.ok && reply.body.Json?
    ensures r.Success? ==> r.value == reply.body.value
    ensures reply.Response? && !reply.ok ==> r == Failure(NewError("Cannot get user profile"))
  {
    match reply
    case NetworkFailure(m) => Failure(FetchError(m))
    case Response(ok, _, _, body) =>
      if !ok then Failure(NewError("Cannot get user profile")) else ReadJson(body)
  }

  /** `refreshUser()` given the backend's reply to `/auth/me`. */
  function RefreshUser(c: Client, reply: Fetched): (r: Client)
    ensures !r.session.loading
  {
    var storedToken := GetItem(c.store, TokenKey);
    if !Present(storedToken) then c.(session := c.session.(loading := false))
    else
      var refreshed :=
        match GetCurrentUser(reply)
        case Failure(_) => Logout(c)
        case Success(response) =>
          match Prop(response, "success")
          case Failure(_) => Logout(c)
          case Success(success) =>
            if Truthy(success) then Client(c.session.(user := Get(response, "data"), token := Str(storedToken.value)), c.store)
            else Logout(c);
      refreshed.(session := refreshed.session.(loading := false))
  }

  /** The `/auth/me` reply that `refreshUser` accepts: OK, JSON, with a truthy `success`. */
  predicate RefreshAccepted(reply: Fetched) {
    reply.Response? && reply.ok && reply.body.Json? && Truthy(Get(reply.body.value, "success"))
  }

  // ---------------------------------------------------------------------------------------------
  // Properties.

  /** Logging out twice is logging out once. */
  lemma LogoutIdempotent(c: Client)
    ensures Logout(Logout(c)) == Logout(c)
  {
    SignOutIdempotent(c);
  }

  /** Both keys truthy and a parsable user: the state becomes (stored token, parsed user), storage stays. */
  lemma InitializeRestores(c: Client, codec: JsonCodec)
    requires Present(GetItem(c.store, TokenKey)) && Present(GetItem(c.store, UserKey))
    requires codec.parse(c.store[UserKey]).Some?
    ensures var r := InitializeAuth(c, codec);
            r == Client(Session(codec.parse(c.store[UserKey]).value, Str(c.store[TokenKey]), false), c.store)
  {
  }

  /** Both keys truthy but an unparsable user: the same as `logout()` followed by the end of loading. */
  lemma InitializeCorruptIsLogout(c: Client, codec: JsonCodec)
    requires Present(GetItem(c.store, TokenKey)) && Present(GetItem(c.store, UserKey))
    requires codec.parse(c.store[UserKey]).None?
    ensures InitializeAuth(c, codec) == Logout(c).(session := Logout(c).session.(loading := false))
  {
  }

  /** A missing or empty key: only the loading flag changes. */
  lemma InitializeWithoutPair(c: Client, codec: JsonCodec)
    requires !Present(GetItem(c.store, TokenKey)) || !Present(GetItem(c.store, UserKey))
    ensures InitializeAuth(c, codec) == c.(session := c.session.(loading := false))
  {
  }

  /** `login(t, u)`, a restart and `initializeAuth` give back `t` and `u` as JSON sees it; a user that
      came from `JSON.parse` (no `undefined` anywhere) comes back unchanged. */
  lemma LoginThenInitialize(c: Client, token: string, user: JsValue, codec: JsonCodec)
    requires Faithful(codec)
    requires token != "" && !user.Undefined?
    ensures InitializeAuth(Mount(Login(c, token, user, codec).store), codec).session
              == Session(JsonView(user), Str(token), false)
    ensures JsonClean(user) ==> InitializeAuth(Mount(Login(c, token, user, codec).store), codec).session.user == user
  {
    assert codec.parse(codec.stringify(user)) == Some(JsonView(user));
    if JsonClean(user) {
      JsonViewOfClean(user);
    }
  }

  /** `refreshUser` with no truthy stored token: only the loading flag changes. */
  lemma RefreshWithoutToken(c: Client, reply: Fetched)
    requires !Present(GetItem(c.store, TokenKey))
    ensures RefreshUser(c, reply) == c.(session := c.session.(loading := false))
  {
  }

  /** `refreshUser` on an accepted reply: the user is `response.data`, the token is the stored token,
      and storage is not rewritten. */
  lemma RefreshSuccess(c: Client, reply: Fetched)
    requires Present(GetItem(c.store, TokenKey)) && RefreshAccepted(reply)
    ensures var r := RefreshUser(c, reply);
            && r.session == Session(Get(reply.body.value, "data"), Str(c.store[TokenKey]), false)
            && r.store == c.store
  {
  }

  /** `refreshUser` on any other reply, or a thrown error: the same as `logout()`, loading ended. */
  lemma RefreshFailureIsLogout(c: Client, reply: Fetched)
    requires Present(GetItem(c.store, TokenKey)) && !RefreshAccepted(reply)
    ensures RefreshUser(c, reply) == Logout(c).(session := Logout(c).session.(loading := false))
  {
    match GetCurrentUser(reply)
    case Failure(_) =>
    case Success(response) =>
      assert !Truthy(Get(response, "success"));
  }
}

=== FILE: exhibitions.dfy ===
/** The exhibition list page, `src/app/exhibitions/page.tsx`: status badge, end date, booth total, and
    the handling of the list reply. */
module Exhibitions {
  import opened Wrappers
  import opened Js
  import opened Time
  import Text

  /** The fields of an exhibition the cards read; `start` is `new Date(startDate)`. */
  datatype Exhibition = Exhibition(id: string, name: string, venue: string, start: Instant,
                                   durationDay: int, smallBoothQuota: int, bigBoothQuota: int)

  /** The last day shown on a card and the bound of the "ongoing" status. */
  function EndDate(start: Instant, durationDay: int): (end: Instant)
    ensures start.Valid? && -MaxTimeMs <= start.ms + durationDay * 86_400_000 <= MaxTimeMs ==>
              end == Valid(start.ms + durationDay * 86_400_000)
    ensures end.Valid? ==> start.Valid? && end.ms - start.ms == durationDay * 86_400_000
    ensures start.Valid? && !(-MaxTimeMs <= start.ms + durationDay * 86_400_000 <= MaxTimeMs) ==> end.Invalid?
    ensures start.Invalid? ==> end.Invalid?
  {
    AddDays(start, durationDay)
  }

  datatype Status = Upcoming | Ongoing | Ended

  /** The status an exhibition has at `now`, stated on time values: upcoming before the start, ongoing
      from the start to the end with both bounds included, ended otherwise (an invalid start or end
      date compares false both ways and so reads as ended). */
  function Classify(now: int, start: Instant, durationDay: int): (s: Status)
    ensures s == Upcoming <==> start.Valid? && now < start.ms
    ensures s == Ongoing <==> start.Valid? && EndDate(start, durationDay).Valid?
                              && start.ms <= now <= EndDate(start, durationDay).ms
    ensures s == Ended <==> !(start.Valid? && now < start.ms)
                            && !(start.Valid? && EndDate(start, durationDay).Valid?
                                 && start.ms <= now <= EndDate(start, durationDay).ms)
  {
    var end := EndDate(start, durationDay);
    if start.Valid? && now < start.ms then Upcoming
    else if start.Valid? && end.Valid? && start.ms <= now <= end.ms then Ongoing
    else Ended
  }

  function ColorOf(s: Status): string {
    match s
    case Upcoming => "bg-blue-100 text-blue-800"
    case Ongoing => "bg-green-100 text-green-800"
    case Ended => "bg-gray-100 text-gray-800"
  }

  function TextOf(s: Status): string {
    match s
    case Upcoming => "กำลังจะมาถึง"
    case Ongoing => "กำลังจัดงาน"
    case Ended => "จบแล้ว"
  }

  /** `getStatusColor(startDate, durationDay)` at time `now`. */
  function StatusColor(now: int, start: Instant, durationDay: int): (color: string)
    ensures color == ColorOf(Classify(now, start, durationDay))
  {
    var end := EndDate(start, durationDay);
    if Before(Valid(now), start) then "bg-blue-100 text-blue-800"
    else if NotAfter(start, Valid(now)) && NotAfter(Valid(now), end) then "bg-green-100 text-green-800"
    else "bg-gray-100 text-gray-800"
  }

  /** `getStatusText(startDate, durationDay)` at time `now`. */
  function StatusText(now: int, start: Instant, durationDay: int): (text: string)
    ensures text == TextOf(Classify(now, start, durationDay))
  {
    var end := EndDate(start, durationDay);
    if Before(Valid(now), start) then "กำลังจะมาถึง"
    else if NotAfter(start, Valid(now)) && NotAfter(Valid(now), end) then "กำลังจัดงาน"
    else "จบแล้ว"
  }

  /** Read at one instant, the colour and the text name the same status: either one determines the other. */
  lemma BadgeAgrees(now: int, start: Instant, durationDay: int, s: Status)
    ensures StatusColor(now, start, durationDay) == ColorOf(s) <==> StatusText(now, start, durationDay) == TextOf(s)
  {
    BadgeDeterminesStatus(Classify(now, start, durationDay), s);
  }

  /** The colours and texts are three distinct values each, so either badge determines the status. */
  lemma BadgeDeterminesStatus(s: Status, t: Status)
    ensures ColorOf(s) == ColorOf(t) <==> s == t
    ensures TextOf(s) == TextOf(t) <==> s == t
  {
    assert |"bg-blue-100 text-blue-800"| != |"bg-green-100 text-green-800"|;
    assert "bg-blue-100 text-blue-800"[3] != "bg-gray-100 text-gray-800"[3];
    assert "bg-green-100 text-green-800"[5] != "bg-gray-100 text-gray-800"[5];
    assert "กำลังจะมาถึง"[6] != "กำลังจัดงาน"[6];
    assert |"กำลังจะมาถึง"| != |"จบแล้ว"|;
    assert |"กำลังจัดงาน"| != |"จบแล้ว"|;
  }

  /** An invalid start date always reads as ended. */
  lemma InvalidStartIsEnded(now: int, durationDay: int)
    ensures Classify(now, Invalid, durationDay) == Ended
  {
  }

  /** The booth total a card shows. */
  function TotalBooths(e: Exhibition): (total: int)
    ensures e.smallBoothQuota >= 0 && e.bigBoothQuota >= 0 ==>
              total >= e.smallBoothQuota && total >= e.bigBoothQuota
  {
    e.smallBoothQuota + e.bigBoothQuota
  }

  /** One card of the list: badge, date range and booth total. */
  datatype Card = Card(statusText: string, statusColor: string, end: Instant, totalBooths: int)

  /** A card as rendered: `getStatusColor` and `getStatusText` each call `new Date()`, so the colour is
      classified at `colorNow` and the text at the later `textNow`. */
  function CardOf(e: Exhibition, colorNow: int, textNow: int): (c: Card)
    ensures c.statusColor == ColorOf(Classify(colorNow, e.start, e.durationDay))
    ensures c.statusText == TextOf(Classify(textNow, e.start, e.durationDay))
    ensures c.totalBooths == e.smallBoothQuota + e.bigBoothQuota
    ensures c.end == EndDate(e.start, e.durationDay)
  {
    Card(StatusText(textNow, e.start, e.durationDay), StatusColor(colorNow, e.start, e.durationDay),
         EndDate(e.start, e.durationDay), TotalBooths(e))
  }

  /** When the two clock readings straddle the start, one card shows the "upcoming" colour beside the
      "ongoing" text. */
  lemma BadgeSplitsAcrossStart(e: Exhibition, colorNow: int, textNow: int)
    requires e.start.Valid? && -MaxTimeMs <= e.start.ms
    requires colorNow < e.start.ms <= textNow <= e.start.ms + e.durationDay * DayMs <= MaxTimeMs
    ensures CardOf(e, colorNow, textNow).statusColor == ColorOf(Upcoming)
    ensures CardOf(e, colorNow, textNow).statusText == TextOf(Ongoing)
  {
    assert EndDate(e.start, e.durationDay) == Valid(e.start.ms + e.durationDay * DayMs);
  }

  /** The list `fetchExhibitions` stores for a reply, as the nested checks are written. */
  function DisplayedList(response: JsValue): (list: seq<JsValue>)
    ensures list == if Truthy(response) && Get(response, "data").Arr? then Get(response, "data").items else []
  {
    if Truthy(response) && Truthy(Get(response, "success")) && Truthy(Get(response, "data")) then
      if Get(response, "data").Arr? then Get(response, "data").items else []
    else if Truthy(response) && Truthy(Get(response, "data")) && Get(response, "data").Arr? then
      Get(response, "data").items
    else []
  }

  const ServerUnreachable := "ไม่สามารถเชื่อมต่อกับเซิร์ฟเวอร์ได้ กรุณาตรวจสอบว่าเซิร์ฟเวอร์ทำงานอยู่หรือไม่"
  const Offline := "ไม่มีการเชื่อมต่ออินเทอร์เน็ต กรุณาตรวจสอบการเชื่อมต่อของคุณ"
  const LoadFailed := "เกิดข้อผิดพลาดในการโหลดข้อมูล กรุณาลองใหม่อีกครั้ง"

  /** The error text for an exception from `getExhibitions`, given `navigator.onLine`. */
  function ErrorText(e: Thrown, online: bool): (text: string)
    ensures text == ServerUnreachable <==> e.name == TypeError && Text.Contains(e.message, "Failed to fetch")
    ensures text == Offline <==> !(e.name == TypeError && Text.Contains(e.message, "Failed to fetch")) && !online
    ensures text == LoadFailed <==> !(e.name == TypeError && Text.Contains(e.message, "Failed to fetch")) && online
  {
    if e.name == TypeError && Text.Contains(e.message, "Failed to fetch") then ServerUnreachable
    else if !online then Offline
    else LoadFailed
  }

  /** The page after `fetchExhibitions` settles. */
  datatype Page = Page(exhibitions: seq<JsValue>, error: Option<string>, loading: bool)

  /** `fetchExhibitions` given what `getExhibitions()` resolved or rejected with. */
  function FetchExhibitions(current: seq<JsValue>, reply: Result<JsValue, Thrown>, online: bool): (p: Page)
    ensures !p.loading
    ensures reply.Success? ==> p.error.None? && p.exhibitions == DisplayedList(reply.value)
    ensures reply.Failure? ==> p.exhibitions == current && p.error == Some(ErrorText(reply.error, online))
  {
    match reply
    case Success(response) => Page(DisplayedList(response), None, false)
    case Failure(e) => Page(current, Some(ErrorText(e, online)), false)
  }
}

=== FILE: home.dfy ===
/** The home page, `src/app/page.tsx`: the first three upcoming exhibitions. */
module Home {
  import opened Wrappers
  import opened Js
  import opened Time
  import Seqs

  /** `new Date(x)` for an arbitrary JavaScript value, left uninterpreted. */
  type DateParser = JsValue -> Instant

  /** An element that starts strictly after `now`: `new Date(e.startDate) > new Date()`. An invalid
      start date compares false and so is never upcoming. */
  predicate IsUpcoming(e: JsValue, now: int, parseDate: DateParser)
    ensures IsUpcoming(e, now, parseDate) <==>
              !Nullish(e) && parseDate(Get(e, "startDate")).Valid? && now < parseDate(Get(e, "startDate")).ms
  {
    !Nullish(e) && Before(Valid(now), parseDate(Get(e, "startDate")))
  }

  /** `items.filter(e => new Date(e.startDate) > now)`: reading `startDate` of a null element throws. */
  function FilterUpcoming(items: seq<JsValue>, now: int, parseDate: DateParser): (r: Result<seq<JsValue>, Thrown>)
    ensures r.Success? <==> forall i :: 0 <= i < |items| ==> !Nullish(items[i])
    ensures r.Success? ==> forall j :: 0 <= j < |r.value| ==> IsUpcoming(r.value[j], now, parseDate)
    ensures r.Success? ==> |r.value| <= |items|
  {
    if items == [] then Success([])
    else
      var startDate :- Prop(items[0], "startDate");
      var rest :- FilterUpcoming(items[1..], now, parseDate);
      assert forall i :: 1 <= i < |items| ==> items[i] == items[1..][i - 1];
      if Before(Valid(now), parseDate(startDate)) then Success([items[0]] + rest) else Success(rest)
  }

  /** The reference selection: the upcoming elements, in order. */
  function Upcoming(items: seq<JsValue>, now: int, parseDate: DateParser): seq<JsValue> {
    Seqs.Filter(items, e => IsUpcoming(e, now, parseDate))
  }

  /** A filter that does not throw computes the reference selection. */
  lemma {:induction false} FilterUpcomingIsFilter(items: seq<JsValue>, now: int, parseDate: DateParser)
    requires FilterUpcoming(items, now, parseDate).Success?
    ensures FilterUpcoming(items, now, parseDate).value == Upcoming(items, now, parseDate)
  {
    if items != [] {
      FilterUpcomingIsFilter(items[1..], now, parseDate);
    }
  }

  /** How many cards the home page shows. */
  const ShownLimit := 3

  /** `.filter(...).slice(0, 3)`. */
  function ShownUpcoming(items: seq<JsValue>, now: int, parseDate: DateParser): (r: Result<seq<JsValue>, Thrown>)
    ensures r.Success? <==> FilterUpcoming(items, now, parseDate).Success?
    ensures r.Success? ==> |r.value| <= ShownLimit
    ensures r.Success? ==> r.value <= FilterUpcoming(items, now, parseDate).value
    ensures r.Success? ==>
              var upcoming := FilterUpcoming(items, now, parseDate).value;
              |r.value| == if |upcoming| < ShownLimit then |upcoming| else ShownLimit
  {
    var upcoming :- FilterUpcoming(items, now, parseDate);
    Success(if |upcoming| <= ShownLimit then upcoming else upcoming[..ShownLimit])
  }

  /** The home page state after the fetch effect. */
  datatype HomeState = HomeState(exhibitions: seq<JsValue>, loading: bool)

  /** The fetch effect given what `getExhibitions()` resolved or rejected with. Any exception (a
      rejected request, `response.data` that is not an array, a null element) leaves the list empty. */
  function LoadHome(reply: Result<JsValue, Thrown>, now: int, parseDate: DateParser): (h: HomeState)
    ensures !h.loading
    ensures |h.exhibitions| <= ShownLimit
    ensures forall j :: 0 <= j < |h.exhibitions| ==> IsUpcoming(h.exhibitions[j], now, parseDate)
    ensures reply.Failure? ==> h.exhibitions == []
    ensures h.exhibitions != [] ==>
              && reply.Success? && Get(reply.value, "data").Arr?
              && forall i :: 0 <= i < |Get(reply.value, "data").items| ==> !Nullish(Get(reply.value, "data").items[i])
  {
    var shown :=
      match reply
      case Failure(_) => []
      case Success(response) =>
        match Prop(response, "data")
        case Failure(_) => []
        case Success(data) =>
          if !data.Arr? then []
          else match ShownUpcoming(data.items, now, parseDate)
               case Failure(_) => []
               case Success(s) => s;
    HomeState(shown, false)
  }

  /** The shown list is an order-preserving selection of upcoming exhibitions, a prefix of all of them;
      when there are at most three, all are shown. */
  lemma ShownIsOrderedSelection(items: seq<JsValue>, now: int, parseDate: DateParser)
    requires forall i :: 0 <= i < |items| ==> !Nullish(items[i])
    ensures var shown := ShownUpcoming(items, now, parseDate).value;
            var all := Upcoming(items, now, parseDate);
            && shown <= all
            && Seqs.Subsequence(all, items)
            && |all| == Seqs.Count(items, e => IsUpcoming(e, now, parseDate))
            && (|all| <= ShownLimit ==> shown == all)
  {
    FilterUpcomingIsFilter(items, now, parseDate);
    Seqs.FilterIsOrderedSelection(items, e => IsUpcoming(e, now, parseDate));
  }

  /** The reply shape the page expects: `{data: [...]}` with no null element. */
  lemma LoadHomeShowsSelection(data: seq<JsValue>, rest: map<string, JsValue>, now: int, parseDate: DateParser)
    requires forall i :: 0 <= i < |data| ==> !Nullish(data[i])
    ensures LoadHome(Success(Obj(rest["data" := Arr(data)])), now, parseDate).exhibitions
              == ShownUpcoming(data, now, parseDate).value
  {
  }
}

=== FILE: http.dfy ===
/** What a `fetch` call followed by `response.json()` can produce, as an input to the model. */
module Http {
  import opened Wrappers
  import opened Js

  /** The body as `response.json()` sees it: parsed JSON, or a SyntaxError with the engine's message. */
  datatype Body = Json(value: JsValue) | NotJson(message: string)

  /** A `fetch` that rejected (a TypeError such as "Failed to fetch"), or the response it resolved to. */
  datatype Fetched =
    | NetworkFailure(message: string)
    | Response(ok: bool, status: nat, statusText: string, body: Body)

  /** `await response.json()`. */
  function ReadJson(body: Body): (r: Result<JsValue, Thrown>)
    ensures r.Success? <==> body.Json?
    ensures r.Success? ==> r.value == body.value
    ensures r.Failure? ==> r.error == Thrown(SyntaxError, body.message)
  {
    match body
    case Json(v) => Success(v)
    case NotJson(m) => Failure(Thrown(SyntaxError, m))
  }

  /** The exception a rejected `fetch` throws. */
  function FetchError(message: string): Thrown {
    Thrown(TypeError, message)
  }
}

=== FILE: js.dfy ===
/** The slice of JavaScript value semantics that the client code relies on: truthiness, `||`, `??`,
    property reads that throw on `null`/`undefined`, `String(v)`, and what `JSON.stringify` keeps. */
module Js {
  import opened Wrappers
  import Text

  /** A JavaScript value as it arrives from a JSON body or is built by the client.
      Numbers are modelled as integers. */
  datatype JsValue =
    | Undefined
    | Null
    | Bool(b: bool)
    | Num(n: int)
    | Str(s: string)
    | Arr(items: seq<JsValue>)
    | Obj(fields: map<string, JsValue>)

  /** JavaScript truthiness: `undefined`, `null`, `false`, `0` and `""` are falsy; every array and object is truthy. */
  predicate Truthy(v: JsValue) {
    match v
    case Undefined => false
    case Null => false
    case Bool(b) => b
    case Num(n) => n != 0
    case Str(s) => s != ""
    case Arr(_) => true
    case Obj(_) => true
  }

  /** `null` or `undefined`: the values whose property reads throw and that `??` replaces. */
  predicate Nullish(v: JsValue) {
    v.Undefined? || v.Null?
  }

  /** `a || b`. */
  function Or(a: JsValue, b: JsValue): (r: JsValue)
    ensures Truthy(r) <==> Truthy(a) || Truthy(b)
    ensures r == a || r == b
  {
    if Truthy(a) then a else b
  }

  /** `a ?? b`. */
  function Coalesce(a: JsValue, b: JsValue): (r: JsValue)
    ensures !Nullish(a) ==> r == a
    ensures Nullish(a) ==> r == b
  {
    if Nullish(a) then b else a
  }

  /** `v.k` on a value that is not `null`/`undefined`: an object's own field, otherwise `undefined`.
      Built-in properties of strings and arrays (`length`, methods) are not modelled. */
  function Get(v: JsValue, k: string): (r: JsValue)
    ensures r != Undefined ==> v.Obj? && k in v.fields && v.fields[k] == r
  {
    if v.Obj? && k in v.fields then v.fields[k] else Undefined
  }

  /** The constructor an exception was created with. */
  datatype ErrorName = Error | TypeError | SyntaxError

  /** A thrown exception: `error.name` and `error.message`. */
  datatype Thrown = Thrown(name: ErrorName, message: string)

  /** `new Error(message)` with a string message. */
  function NewError(message: string): Thrown {
    Thrown(Error, message)
  }

  /** `v.k` as the engine evaluates it: reading a property of `null`/`undefined` throws a TypeError
      (message text as V8 writes it). */
  function Prop(v: JsValue, k: string): (r: Result<JsValue, Thrown>)
    ensures r.Failure? <==> Nullish(v)
    ensures r.Success? ==> r.value == Get(v, k)
    ensures r.Failure? ==> r.error.name == TypeError
  {
    if Nullish(v) then
      Failure(Thrown(TypeError, "Cannot read properties of " + (if v.Null? then "null" else "undefined")
                                 + " (reading '" + k + "')"))
    else Success(Get(v, k))
  }

  /** `items.join(sep)` for items already converted to strings. */
  function Join(items: seq<string>, sep: string): string {
    if |items| == 0 then "" else if |items| == 1 then items[0] else Join(items[..|items| - 1], sep) + sep + items[|items| - 1]
  }

  /** `String(v)`: what `new Error(v)`, template literals and `localStorage.setItem` store. */
  function ToString(v: JsValue): (s: string)
    ensures v.Str? ==> s == v.s
  {
    match v
    case Undefined => "undefined"
    case Null => "null"
    case Bool(b) => if b then "true" else "false"
    case Num(n) => if n < 0 then "-" + Text.Decimal(-n) else Text.Decimal(n)
    case Str(s) => s
    case Arr(items) =>
      // Array.prototype.join renders null and undefined elements as empty strings.
      Join(seq(|items|, i requires 0 <= i < |items| =>
                 if Nullish(items[i]) then "" else ToString(items[i])), ",")
    case Obj(_) => "[object Object]"
  }

  /** A truthy value other than an array converts to a non-empty string. */
  lemma TruthyToStringNonEmpty(v: JsValue)
    requires Truthy(v) && !v.Arr?
    ensures ToString(v) != ""
  {
  }

  /** The value `JSON.parse(JSON.stringify(v))` gives back for `v` (not `undefined`): object fields
      holding `undefined` are dropped and `undefined` array elements become `null`. */
  function JsonView(v: JsValue): (r: JsValue)
    ensures v.Obj? ==> r.Obj? && r.fields.Keys <= v.fields.Keys
  {
    match v
    case Arr(items) =>
      Arr(seq(|items|, i requires 0 <= i < |items| => if items[i].Undefined? then Null else JsonView(items[i])))
    case Obj(fields) =>
      Obj(map k | k in fields && !fields[k].Undefined? :: JsonView(fields[k]))
    case _ => v
  }

  /** A value that holds no `undefined` anywhere, as every value produced by `JSON.parse` does. */
  predicate JsonClean(v: JsValue) {
    match v
    case Undefined => false
    case Arr(items) => forall i :: 0 <= i < |items| ==> JsonClean(items[i])
    case Obj(fields) => forall k :: k in fields ==> JsonClean(fields[k])
    case _ => true
  }

  /** A JSON-clean value survives a stringify/parse round trip unchanged. */
  lemma {:induction false} JsonViewOfClean(v: JsValue)
    requires JsonClean(v)
    ensures JsonView(v) == v
  {
    match v
    case Arr(items) =>
      forall i | 0 <= i < |items| ensures JsonView(items[i]) == items[i] {
        JsonViewOfClean(items[i]);
      }
      assert JsonView(v).items == items;
    case Obj(fields) =>
      forall k | k in fields ensures JsonView(fields[k]) == fields[k] {
        JsonViewOfClean(fields[k]);
      }
      assert JsonView(v).fields == fields;
    case _ =>
  }

  /** `JSON.parse` (None when it throws) and `JSON.stringify`, left uninterpreted. */
  datatype JsonCodec = JsonCodec(parse: string -> Option<JsValue>, stringify: JsValue -> string)

  /** The contract of a real JSON implementation that the client relies on: stringify never yields
      the empty string, and parsing back the text of a value yields its `JsonView`. */
  ghost predicate Faithful(codec: JsonCodec) {
    forall v: JsValue :: !v.Undefined? ==> codec.stringify(v) != "" && codec.parse(codec.stringify(v)) == Some(JsonView(v))
  }
}

=== FILE: middleware.dfy ===
/** The route guard of `middleware.ts`: `/mybooking` pages need a `token` cookie. */
module Middleware {
  import opened Wrappers
  import Text

  /** The parts of `request.nextUrl` the guard reads or rewrites. */
  datatype Url = Url(origin: string, pathname: string, search: string, hash: string)

  /** A request: its URL and its cookies by name. */
  datatype Request = Request(url: Url, cookies: map<string, string>)

  /** `NextResponse.next()` or `NextResponse.redirect(url)`. */
  datatype Decision = Next | Redirect(location: Url)

  const GuardedPrefix := "/mybooking"
  const LoginPath := "/login"

  /** `request.cookies.get('token')?.value`. */
  function TokenCookie(r: Request): (t: Option<string>)
    ensures t.Some? <==> "token" in r.cookies
    ensures t.Some? ==> t.value == r.cookies["token"]
  {
    if "token" in r.cookies then Some(r.cookies["token"]) else None
  }

  /** `middleware(request)`. */
  function Guard(r: Request): (d: Decision)
    ensures d.Redirect? <==>
              Text.StartsWith(r.url.pathname, GuardedPrefix) && (TokenCookie(r).None? || TokenCookie(r).value == "")
    ensures d.Redirect? ==> d.location == r.url.(pathname := LoginPath)
  {
    if Text.StartsWith(r.url.pathname, GuardedPrefix) then
      var token := TokenCookie(r);
      if token.None? || token.value == "" then
        Redirect(r.url.(pathname := LoginPath))
      else Next
    else Next
  }

  /** The `config.matcher` of `['/mybooking']`: the guard runs for that exact path only. */
  predicate Matched(pathname: string) {
    pathname == GuardedPrefix
  }

  /** What the framework does with a request: run the guard on matched paths, pass the rest through. */
  function Route(r: Request): (d: Decision)
    ensures !Matched(r.url.pathname) ==> d == Next
    ensures d.Redirect? <==> Matched(r.url.pathname) && (TokenCookie(r).None? || TokenCookie(r).value == "")
  {
    if Matched(r.url.pathname) then Guard(r) else Next
  }

  /** A redirect keeps origin, query and fragment and replaces only the path, with `/login`. */
  lemma RedirectOnlyChangesPath(r: Request)
    requires Guard(r).Redirect?
    ensures var u := Guard(r).location;
            u.origin == r.url.origin && u.search == r.url.search && u.hash == r.url.hash && u.pathname == "/login"
  {
  }

  /** The decision depends only on whether the path starts with `/mybooking` and on the token cookie:
      two requests that agree on both get the same decision, up to the URL a redirect rewrites. */
  lemma GuardDependsOnPrefixAndToken(r1: Request, r2: Request)
    requires Text.StartsWith(r1.url.pathname, GuardedPrefix) == Text.StartsWith(r2.url.pathname, GuardedPrefix)
    requires TokenCookie(r1) == TokenCookie(r2)
    ensures Guard(r1).Next? <==> Guard(r2).Next?
    ensures Guard(r1).Redirect? ==> Guard(r1).location == Guard(r2).location.(origin := r1.url.origin,
                                                                                search := r1.url.search,
                                                                                hash := r1.url.hash)
  {
  }

  /** A path under `/mybooking` with a non-empty token cookie passes. */
  lemma GuardPassesWithToken(r: Request)
    requires "token" in r.cookies && r.cookies["token"] != ""
    ensures Guard(r) == Next
  {
  }

  /** Any other path passes whatever the cookies. */
  lemma GuardIgnoresOtherPaths(r: Request)
    requires !Text.StartsWith(r.url.pathname, GuardedPrefix)
    ensures Guard(r) == Next
  {
  }
}

=== FILE: my_booking.dfy ===
/** The "my bookings" page, `src/app/mybooking/page.tsx`: loading the signed-in user's bookings,
    rendering each booking card, and deleting a booking. */
module MyBooking {
  import opened Wrappers
  import opened Js
  import opened Http
  import opened Text
  import Seqs

  /** The booking endpoint this page calls directly (note the port: 5001, not the 5000 of `apiUtils`). */
  const BookingUrl := "http://localhost:5001/api/v1/booking"

  const LoadFailedAlert := "Cannot load bookings"
  const DeletedAlert := "Booking deleted successfully!"
  const DeleteFailedAlert := "Delete failed"
  const UnknownExhibition := "Unknown Exhibition"
  const NoDate := "No date"
  const NotAvailable := "N/A"
  const SmallLabel := "เล็ก"
  const BigLabel := "ใหญ่"

  /** A request the page sends: method, URL and the `Authorization` header. */
  datatype Request = Request(verb: string, url: string, authorization: string)

  /** `Bearer ${token}`: the template literal stringifies whatever the token is. */
  function Bearer(token: JsValue): string {
    "Bearer " + ToString(token)
  }

  /** The page state: the bookings value as stored by `setBookings`, the spinner flag, and the id
      whose delete is in flight. */
  datatype Page = Page(bookings: JsValue, loading: bool, deletingId: Option<string>)

  /** `useState<Booking[]>([])`, `useState(true)`, `useState(null)`. */
  const InitialPage := Page(Arr([]), true, None)

  /** One run of the fetch effect: the request it sent (if any), the page afterwards, and the alert shown. */
  datatype LoadRun = LoadRun(sent: Option<Request>, page: Page, alert: Option<string>)

  /** The effect body after `fetch` and `res.json()`: `data.data || []`, or the exception on the way. */
  function LoadedList(reply: Fetched): (r: Result<JsValue, Thrown>)
    ensures r.Success? <==> reply.Response? && reply.ok && reply.body.Json? && !Nullish(reply.body.value)
    ensures r.Success? ==> Truthy(r.value)
    ensures r.Success? && Truthy(Get(reply.body.value, "data")) ==> r.value == Get(reply.body.value, "data")
    ensures r.Success? && !Truthy(Get(reply.body.value, "data")) ==> r.value == Arr([])
    ensures reply.Response? && !reply.ok ==> r == Failure(NewError("Failed to fetch bookings"))
  {
    match reply
    case NetworkFailure(m) => Failure(FetchError(m))
    case Response(ok, _, _, body) =>
      if !ok then Failure(NewError("Failed to fetch bookings"))
      else
        var data :- ReadJson(body);
        var list :- Prop(data, "data");
        Success(Or(list, Arr([])))
  }

  /** The fetch effect, run with the context's token and user and the server's reply. Without both a
      truthy token and a truthy user it returns before fetching, and the spinner stays. */
  function LoadBookings(p: Page, token: JsValue, user: JsValue, reply: Fetched): (run: LoadRun)
    ensures run.sent.Some? <==> Truthy(token) && Truthy(user)
    ensures run.sent.None? ==> run.page == p && run.alert.None?
    ensures run.sent.Some? ==> !run.page.loading && run.page.deletingId == p.deletingId
    ensures run.sent.Some? ==> run.sent.value == Request("GET", BookingUrl, Bearer(token))
    ensures run.sent.Some? ==> (run.alert.None? <==> LoadedList(reply).Success?)
    ensures run.sent.Some? && LoadedList(reply).Success? ==> run.page.bookings == LoadedList(reply).value
    ensures run.alert.Some? ==> run.alert.value == LoadFailedAlert && run.page.bookings == p.bookings
  {
    if !Truthy(token) || !Truthy(user) then LoadRun(None, p, None)
    else
      var sent := Some(Request("GET", BookingUrl, Bearer(token)));
      match LoadedList(reply)
      case Success(list) => LoadRun(sent, p.(bookings := list, loading := false), None)
      case Failure(_) => LoadRun(sent, p.(loading := false), Some(LoadFailedAlert))
  }

  /** Signed out, the page never leaves its spinner. */
  lemma SignedOutSpins(token: JsValue, user: JsValue, reply: Fetched)
    requires !Truthy(token) || !Truthy(user)
    ensures LoadBookings(InitialPage, token, user, reply).page.loading
    ensures LoadBookings(InitialPage, token, user, reply).sent.None?
  {
  }

  /** A reply of the shape the backend sends, `{data: [...]}`, becomes the page's list as it is. */
  lemma LoadKeepsServerList(p: Page, token: JsValue, user: JsValue, status: nat, statusText: string,
                            fields: map<string, JsValue>, items: seq<JsValue>)
    requires Truthy(token) && Truthy(user)
    ensures var run := LoadBookings(p, token, user,
                                    Response(true, status, statusText, Json(Obj(fields["data" := Arr(items)]))));
            run.page == Page(Arr(items), false, p.deletingId) && run.alert.None?
  {
  }

  /** The booking's id as the buttons pass it: `String(booking._id)`. */
  function IdOf(b: JsValue): string {
    ToString(Get(b, "_id"))
  }

  const EditPrefix := "/booking/edit?bookingId="

  /** `router.push(`/booking/edit?bookingId=${id}`)` from the edit button: the id can be read back
      from the path. */
  function EditPath(b: JsValue): (path: string)
    ensures StartsWith(path, EditPrefix)
    ensures path[|EditPrefix|..] == IdOf(b)
  {
    EditPrefix + IdOf(b)
  }

  /** Two bookings lead to the same edit page exactly when their ids print the same. */
  lemma EditPathInjective(b: JsValue, c: JsValue)
    ensures EditPath(b) == EditPath(c) <==> IdOf(b) == IdOf(c)
  {
    if EditPath(b) == EditPath(c) {
      assert EditPath(b)[|EditPrefix|..] == EditPath(c)[|EditPrefix|..];
    }
  }

  /** The list after a successful delete of `id`: `prev.filter(b => b._id !== id)`. The comparison is
      strict, so only a booking whose `_id` is that very string goes. */
  function Remaining(items: seq<JsValue>, id: string): (r: seq<JsValue>)
    ensures forall j :: 0 <= j < |r| ==> Get(r[j], "_id") != Str(id)
    ensures forall i :: 0 <= i < |items| && Get(items[i], "_id") != Str(id) ==> items[i] in r
  {
    Seqs.Filter(items, b => Kept(id, b))
  }

  /** Whether `b` survives the delete of `id`: any `_id` that is not the very string `id`, numbers
      and missing ids included. */
  predicate Kept(id: string, b: JsValue)
    ensures Kept(id, b) <==> !(Get(b, "_id").Str? && Get(b, "_id").s == id)
  {
    Get(b, "_id") != Str(id)
  }

  /** A delete keeps the bookings with another `_id` in their order, and removes as many as carry `id`. */
  lemma RemainingIsOrderedSelection(items: seq<JsValue>, id: string)
    ensures Seqs.Subsequence(Remaining(items, id), items)
    ensures |Remaining(items, id)| == |items| - Seqs.Count(items, b => !Kept(id, b))
  {
    Seqs.FilterIsOrderedSelection(items, b => Kept(id, b));
    Seqs.CountSplit(items, b => Kept(id, b), b => !Kept(id, b));
  }

  /** A booking is in the list after a delete of `id` exactly when it was there before and has another `_id`. */
  lemma RemainingMembers(items: seq<JsValue>, id: string, b: JsValue)
    ensures b in Remaining(items, id) <==> b in items && Kept(id, b)
  {
    if b in Remaining(items, id) {
      Seqs.FilterIsOrderedSelection(items, c => Kept(id, c));
      Seqs.SubsequenceMembers(Remaining(items, id), items, b);
    }
  }

  /** One click of a delete button: the page while the request is in flight, the request (none when
      the confirmation is declined), the page afterwards and the alert shown. */
  datatype DeleteRun = DeleteRun(during: Page, sent: Option<Request>, after: Page, alert: Option<string>)

  /** `handleDelete(id)`. The buttons exist only once every booking has rendered, so the list is an
      array without `null` elements (rendering reads `booking.exhibition` of each). The response body is
      never read; only `res.ok` matters. */
  function HandleDelete(p: Page, token: JsValue, id: string, confirmed: bool, reply: Fetched): (run: DeleteRun)
    requires p.bookings.Arr? && forall i :: 0 <= i < |p.bookings.items| ==> !Nullish(p.bookings.items[i])
    ensures !confirmed ==> run == DeleteRun(p, None, p, None)
    ensures confirmed ==> run.during == p.(deletingId := Some(id)) && run.after.deletingId.None?
    ensures confirmed ==> run.sent == Some(Request("DELETE", BookingUrl + "/" + id, Bearer(token)))
    ensures confirmed && reply.Response? && reply.ok
            ==> run.after.bookings == Arr(Remaining(p.bookings.items, id)) && run.alert == Some(DeletedAlert)
    ensures confirmed && !(reply.Response? && reply.ok)
            ==> run.after.bookings == p.bookings && run.alert == Some(DeleteFailedAlert)
    ensures run.after.loading == p.loading
  {
    if !confirmed then DeleteRun(p, None, p, None)
    else
      var during := p.(deletingId := Some(id));
      var sent := Some(Request("DELETE", BookingUrl + "/" + id, Bearer(token)));
      if reply.Response? && reply.ok then
        DeleteRun(during, sent, during.(bookings := Arr(Remaining(p.bookings.items, id)), deletingId := None),
                  Some(DeletedAlert))
      else
        DeleteRun(during, sent, during.(deletingId := None), Some(DeleteFailedAlert))
  }

  /** Deleting through a booking's own button removes it, and no booking with another `_id`. */
  lemma DeleteThroughButton(p: Page, token: JsValue, b: JsValue, s: string, status: nat, statusText: string, body: Body)
    requires p.bookings.Arr? && forall i :: 0 <= i < |p.bookings.items| ==> !Nullish(p.bookings.items[i])
    requires b in p.bookings.items && Get(b, "_id") == Str(s)
    ensures var run := HandleDelete(p, token, IdOf(b), true, Response(true, status, statusText, body));
            && b !in run.after.bookings.items
            && forall c :: c in p.bookings.items && Get(c, "_id") != Str(s) ==> c in run.after.bookings.items
  {
    RemainingMembers(p.bookings.items, s, b);
  }

  /** A booking whose `_id` is a number survives its own delete: `String(5) !== 5`. */
  lemma NumericIdSurvivesDelete(p: Page, token: JsValue, b: JsValue, n: int, reply: Fetched)
    requires p.bookings.Arr? && forall i :: 0 <= i < |p.bookings.items| ==> !Nullish(p.bookings.items[i])
    requires b in p.bookings.items && Get(b, "_id") == Num(n)
    ensures b in HandleDelete(p, token, IdOf(b), true, reply).after.bookings.items
  {
    RemainingMembers(p.bookings.items, IdOf(b), b);
  }

  /** The delete button of `b` is disabled and shows the loading text: `deletingId === booking._id`. */
  predicate Deleting(p: Page, b: JsValue) {
    p.deletingId.Some? && Get(b, "_id") == Str(p.deletingId.value)
  }

  /** While its delete is in flight a string-keyed booking's button is disabled, and afterwards no
      button is. */
  lemma DeletingWhileInFlight(p: Page, token: JsValue, b: JsValue, s: string, reply: Fetched, c: JsValue)
    requires p.bookings.Arr? && forall i :: 0 <= i < |p.bookings.items| ==> !Nullish(p.bookings.items[i])
    requires Get(b, "_id") == Str(s)
    ensures Deleting(HandleDelete(p, token, IdOf(b), true, reply).during, b)
    ensures !Deleting(HandleDelete(p, token, IdOf(b), true, reply).after, c)
  {
  }

  /** Whether a value passes `x && typeof x === "object"`: a non-null object or array. */
  predicate IsObject(v: JsValue) {
    v.Obj? || v.Arr?
  }

  /** The card's title: the embedded exhibition's `name ?? "Unknown Exhibition"`, or that default when
      the exhibition is only an id or missing. */
  function ExhibitionName(b: JsValue): (r: JsValue)
    ensures !Nullish(r)
    ensures r != Str(UnknownExhibition) ==> IsObject(Get(b, "exhibition")) && Get(Get(b, "exhibition"), "name") == r
    ensures IsObject(Get(b, "exhibition")) && !Nullish(Get(Get(b, "exhibition"), "name"))
            ==> r == Get(Get(b, "exhibition"), "name")
  {
    var ex := Get(b, "exhibition");
    if Truthy(ex) && IsObject(ex) then Coalesce(Get(ex, "name"), Str(UnknownExhibition)) else Str(UnknownExhibition)
  }

  /** `new Date(x).toLocaleDateString()`, left uninterpreted. */
  type LocaleDate = JsValue -> string

  /** The card's date: the embedded exhibition's start date in the locale's format when it is truthy. */
  function ExhibitionDate(b: JsValue, localeDate: LocaleDate): (r: string)
    ensures r != NoDate ==> r == localeDate(Get(Get(b, "exhibition"), "startDate"))
    ensures !(IsObject(Get(b, "exhibition")) && Truthy(Get(Get(b, "exhibition"), "startDate"))) ==> r == NoDate
    ensures IsObject(Get(b, "exhibition")) && Truthy(Get(Get(b, "exhibition"), "startDate"))
            ==> r == localeDate(Get(Get(b, "exhibition"), "startDate"))
  {
    var ex := Get(b, "exhibition");
    if Truthy(ex) && IsObject(ex) && Truthy(Get(ex, "startDate")) then localeDate(Get(ex, "startDate")) else NoDate
  }

  /** The booking card's two bits of text for "booked by": the embedded user's name and email,
      each `?? "N/A"`. */
  function BookedBy(b: JsValue): (r: (JsValue, JsValue))
    ensures !Nullish(r.0) && !Nullish(r.1)
    ensures !IsObject(Get(b, "user")) ==> r == (Str(NotAvailable), Str(NotAvailable))
    ensures IsObject(Get(b, "user")) && !Nullish(Get(Get(b, "user"), "name")) ==> r.0 == Get(Get(b, "user"), "name")
    ensures IsObject(Get(b, "user")) && !Nullish(Get(Get(b, "user"), "email")) ==> r.1 == Get(Get(b, "user"), "email")
    ensures IsObject(Get(b, "user")) && Nullish(Get(Get(b, "user"), "name")) ==> r.0 == Str(NotAvailable)
    ensures IsObject(Get(b, "user")) && Nullish(Get(Get(b, "user"), "email")) ==> r.1 == Str(NotAvailable)
  {
    var u := Get(b, "user");
    if Truthy(u) && IsObject(u) then
      (Coalesce(Get(u, "name"), Str(NotAvailable)), Coalesce(Get(u, "email"), Str(NotAvailable)))
    else (Str(NotAvailable), Str(NotAvailable))
  }

  /** The "booked by" line appears for an admin viewer only: `user?.role === "admin"`. */
  function BookedByLine(viewer: JsValue, b: JsValue): (r: Option<(JsValue, JsValue)>)
    ensures r.Some? <==> Get(viewer, "role") == Str("admin")
  {
    if Get(viewer, "role") == Str("admin") then Some(BookedBy(b)) else None
  }

  /** `s.charAt(0).toUpperCase() + s.slice(1)` for a non-empty string. */
  function Capitalize(s: string): (r: string)
    requires s != ""
    ensures |r| == |s| && r[1..] == s[1..] && r[0] == UpperChar(s[0])
  {
    [UpperChar(s[0])] + s[1..]
  }

  /** Capitalizing is undone by putting back the original first letter, and the first letter is the
      only thing it can change. */
  lemma CapitalizeInverse(s: string, t: string)
    requires s != ""
    ensures Capitalize(s) == t <==> |t| == |s| && t[0] == UpperChar(s[0]) && t[1..] == s[1..]
  {
    if |t| == |s| && t[0] == UpperChar(s[0]) && t[1..] == s[1..] {
      assert t == [t[0]] + t[1..];
    }
  }

  /** The booth line: "Small" and "Big" are shown in Thai, anything else as it is. */
  function BoothLabel(name: string): (r: string)
    ensures r == SmallLabel <==> name == "Small" || name == SmallLabel
    ensures r == BigLabel <==> name == "Big" || name == BigLabel
    ensures name !in {"Small", "Big"} ==> r == name
  {
    if name == "Small" then SmallLabel else if name == "Big" then BigLabel else name
  }

  /** The booth type as the card shows it. A falsy value shows "N/A"; a truthy value that is not a
      string has no `charAt`, and rendering throws. */
  function BoothTypeShown(v: JsValue): (r: Result<string, Thrown>)
    ensures r.Failure? <==> Truthy(v) && !v.Str?
    ensures r.Failure? ==> r.error.name == TypeError
    ensures !Truthy(v) ==> r == Success(NotAvailable)
  {
    if !Truthy(v) then Success(NotAvailable)
    else if v.Str? then Success(BoothLabel(Capitalize(v.s)))
    else Failure(Thrown(TypeError, "booking.boothType.charAt is not a function"))
  }

  /** Exactly the booth types "small", "Small" and the Thai label itself display as the Thai "small". */
  lemma SmallBoothShown(v: JsValue)
    ensures BoothTypeShown(v) == Success(SmallLabel) <==> v in {Str("small"), Str("Small"), Str(SmallLabel)}
  {
    if v.Str? && v.s != "" {
      var c := Capitalize(v.s);
      assert BoothTypeShown(v) == Success(BoothLabel(c));
      CapitalizeInverse(v.s, "Small");
      assert c == "Small" <==> v.s == "small" || v.s == "Small" by {
        if c == "Small" {
          assert v.s[1..] == "mall";
          assert v.s == [v.s[0]] + v.s[1..];
        }
      }
      assert !('a' <= SmallLabel[0] <= 'z') && !('A' <= SmallLabel[0] <= 'Z');
      CapitalizeInverse(v.s, SmallLabel);
      assert c == SmallLabel <==> v.s == SmallLabel by {
        if c == SmallLabel {
          assert v.s[0] == SmallLabel[0];
          assert v.s[1..] == SmallLabel[1..];
          assert v.s == [v.s[0]] + v.s[1..];
        }
      }
    }
  }

  /** Exactly the booth types "big", "Big" and the Thai label itself display as the Thai "big". */
  lemma BigBoothShown(v: JsValue)
    ensures BoothTypeShown(v) == Success(BigLabel) <==> v in {Str("big"), Str("Big"), Str(BigLabel)}
  {
    if v.Str? && v.s != "" {
      var c := Capitalize(v.s);
      assert BoothTypeShown(v) == Success(BoothLabel(c));
      CapitalizeInverse(v.s, "Big");
      assert c == "Big" <==> v.s == "big" || v.s == "Big" by {
        if c == "Big" {
          assert v.s[1..] == "ig";
          assert v.s == [v.s[0]] + v.s[1..];
        }
      }
      assert !('a' <= BigLabel[0] <= 'z') && !('A' <= BigLabel[0] <= 'Z');
      CapitalizeInverse(v.s, BigLabel);
      assert c == BigLabel <==> v.s == BigLabel by {
        if c == BigLabel {
          assert v.s[0] == BigLabel[0];
          assert v.s[1..] == BigLabel[1..];
          assert v.s == [v.s[0]] + v.s[1..];
        }
      }
    }
  }

  /** Any other booth-type string is shown capitalized, and the rest of the string is untouched. */
  lemma OtherBoothShown(s: string)
    requires s != "" && Capitalize(s) !in {"Small", "Big"}
    ensures BoothTypeShown(Str(s)) == Success(Capitalize(s))
    ensures BoothTypeShown(Str(s)).value[1..] == s[1..]
  {
  }
}

=== FILE: ratings.dfy ===
/** The venue-rating reducer of `src/components/CardPanel.tsx`. A JavaScript `Map` iterates in insertion
    order, so the ratings are an association list whose keys are distinct. */
module Ratings {
  import opened Wrappers
  import Seqs

  type Entries = seq<(string, int)>

  /** `map.get(k)`: the rating of the first entry for `k`. */
  function Lookup(s: Entries, k: string): Option<int> {
    if s == [] then None else if s[0].0 == k then Some(s[0].1) else Lookup(s[1..], k)
  }

  /** No key occurs twice, as in every JavaScript `Map`. */
  predicate UniqueKeys(s: Entries) {
    s == [] || (Lookup(s[1..], s[0].0).None? && UniqueKeys(s[1..]))
  }

  /** `map.set(k, v)`: an existing entry is updated in place, a new key is appended. */
  function Put(s: Entries, k: string, v: int): (r: Entries)
    ensures Lookup(r, k) == Some(v)
    ensures forall k' :: k' != k ==> Lookup(r, k') == Lookup(s, k')
    ensures |r| == if Lookup(s, k).Some? then |s| else |s| + 1
    ensures forall i :: 0 <= i < |s| ==> r[i].0 == s[i].0
    ensures UniqueKeys(s) ==> UniqueKeys(r)
  {
    if s == [] then [(k, v)]
    else if s[0].0 == k then [(k, v)] + s[1..]
    else
      var rest := Put(s[1..], k, v);
      assert Lookup(rest, s[0].0) == Lookup(s[1..], s[0].0);
      [s[0]] + rest
  }

  /** `map.delete(k)`: the entry for `k`, if any, is removed; the others keep their order. */
  function Delete(s: Entries, k: string): (r: Entries)
    ensures UniqueKeys(s) ==> Lookup(r, k).None?
    ensures forall k' :: k' != k ==> Lookup(r, k') == Lookup(s, k')
    ensures |r| == if Lookup(s, k).Some? then |s| - 1 else |s|
    ensures UniqueKeys(s) ==> UniqueKeys(r)
  {
    if s == [] then []
    else if s[0].0 == k then s[1..]
    else
      var rest := Delete(s[1..], k);
      assert Lookup(rest, s[0].0) == Lookup(s[1..], s[0].0);
      [s[0]] + rest
  }

  /** A key the lookup does not find occurs in no entry. */
  lemma {:induction false} AbsentKey(s: Entries, k: string)
    requires Lookup(s, k).None?
    ensures forall i :: 0 <= i < |s| ==> s[i].0 != k
  {
    if s != [] {
      AbsentKey(s[1..], k);
      assert forall i :: 1 <= i < |s| ==> s[i] == s[1..][i - 1];
    }
  }

  /** On a map, deleting `k` keeps every other entry in insertion order: it is the filter on keys. */
  lemma {:induction false} DeleteIsFilter(s: Entries, k: string)
    requires UniqueKeys(s)
    ensures Delete(s, k) == Seqs.Filter(s, (e: (string, int)) => e.0 != k)
  {
    if s != [] {
      if s[0].0 == k {
        AbsentKey(s[1..], k);
        Seqs.FilterAll(s[1..], (e: (string, int)) => e.0 != k);
      } else {
        DeleteIsFilter(s[1..], k);
      }
    }
  }

  /** The two dispatched actions. */
  datatype Action = SetRating(venue: string, rating: int) | RemoveRating(venue: string)

  /** `ratingReducer(state, action)`: a copy of the state with the action applied. */
  function Reduce(state: Entries, action: Action): (r: Entries)
    ensures UniqueKeys(state) ==> UniqueKeys(r)
    ensures action.SetRating? ==> Lookup(r, action.venue) == Some(action.rating)
    ensures action.RemoveRating? && UniqueKeys(state) ==> Lookup(r, action.venue).None?
    ensures forall k :: k != action.venue ==> Lookup(r, k) == Lookup(state, k)
  {
    match action
    case SetRating(venue, rating) => Put(state, venue, rating)
    case RemoveRating(venue) => Delete(state, venue)
  }

  const Venues: seq<string> := ["The Bloom Pavilion", "Spark Space", "The Grand Table"]

  /** `new Map(venues.map(v => [v.name, 0]))`. */
  const InitialRatings: Entries := [(Venues[0], 0), (Venues[1], 0), (Venues[2], 0)]

  /** `ratings.get(name) ?? 0`: the rating a card shows. */
  function DisplayedRating(s: Entries, name: string): (r: int)
    ensures Lookup(s, name).None? ==> r == 0
    ensures Lookup(s, name).Some? ==> r == Lookup(s, name).value
  {
    Lookup(s, name).GetOr(0)
  }

  // ---------------------------------------------------------------------------------------------
  // Properties.

  /** The initial state rates each of the three venues 0, in catalogue order, and holds nothing else. */
  lemma InitialRatingsShape()
    ensures UniqueKeys(InitialRatings)
    ensures forall k :: Lookup(InitialRatings, k) == (if k in Venues then Some(0) else None)
    ensures forall i :: 0 <= i < 3 ==> InitialRatings[i].0 == Venues[i]
  {
    var s := InitialRatings;
    assert s[1..] == [(Venues[1], 0), (Venues[2], 0)];
    assert s[1..][1..] == [(Venues[2], 0)];
    assert s[1..][1..][1..] == [];
    assert |Venues[0]| == 18 && |Venues[1]| == 11 && |Venues[2]| == 15;
    forall k ensures Lookup(s, k) == (if k in Venues then Some(0) else None) {
      assert Lookup(s[1..][1..][1..], k) == None;
      assert Lookup(s[1..][1..], k) == if k == Venues[2] then Some(0) else None;
      assert Lookup(s[1..], k) == if k == Venues[1] || k == Venues[2] then Some(0) else None;
      assert k in Venues <==> k == Venues[0] || k == Venues[1] || k == Venues[2];
    }
    assert UniqueKeys(s[1..][1..]);
    assert Lookup(s[1..][1..], Venues[1]) == None;
    assert UniqueKeys(s[1..]);
    assert Lookup(s[1..][1..], Venues[0]) == None;
    assert Lookup(s[1..], Venues[0]) == None;
  }

  /** Setting the same rating twice is setting it once. */
  lemma {:induction false} PutIdempotent(s: Entries, k: string, v: int)
    ensures Put(Put(s, k, v), k, v) == Put(s, k, v)
  {
    if s != [] && s[0].0 != k {
      PutIdempotent(s[1..], k, v);
      assert Put(s, k, v)[1..] == Put(s[1..], k, v);
    }
  }

  /** Removing a venue that has no rating changes nothing. */
  lemma {:induction false} DeleteAbsent(s: Entries, k: string)
    requires Lookup(s, k).None?
    ensures Delete(s, k) == s
  {
    if s != [] {
      DeleteAbsent(s[1..], k);
    }
  }

  /** Removing a venue and setting it again moves it to the end of the iteration order. */
  lemma {:induction false} DeleteThenPutAppends(s: Entries, k: string, v: int)
    requires UniqueKeys(s)
    ensures Put(Delete(s, k), k, v) == Delete(s, k) + [(k, v)]
  {
    PutAppendsAbsent(Delete(s, k), k, v);
  }

  /** Setting a key that is absent appends it. */
  lemma {:induction false} PutAppendsAbsent(s: Entries, k: string, v: int)
    requires Lookup(s, k).None?
    ensures Put(s, k, v) == s + [(k, v)]
  {
    if s != [] {
      PutAppendsAbsent(s[1..], k, v);
      assert s + [(k, v)] == [s[0]] + (s[1..] + [(k, v)]);
    }
  }
}

=== FILE: register.dfy ===
/** The registration page, `src/app/register/page.tsx`. */
module Register {
  import opened Wrappers
  import opened Js
  import opened Http

  datatype RegisterForm = RegisterForm(name: string, email: string, tel: string, role: string,
                                       password: string, confirmPassword: string)

  const InitialForm := RegisterForm("", "", "", "member", "", "")

  /** The text inputs of the form; the role is set by the two selector buttons only. */
  datatype TextInput = NameInput | EmailInput | TelInput | PasswordInput | ConfirmPasswordInput

  /** The value the form holds for a text input. */
  function Field(f: RegisterForm, input: TextInput): string {
    match input
    case NameInput => f.name
    case EmailInput => f.email
    case TelInput => f.tel
    case PasswordInput => f.password
    case ConfirmPasswordInput => f.confirmPassword
  }

  /** `handleInputChange` for one of the text inputs: `{...prev, [name]: value}`. */
  function EditInput(f: RegisterForm, input: TextInput, value: string): (r: RegisterForm)
    ensures Field(r, input) == value
    ensures forall other: TextInput :: other != input ==> Field(r, other) == Field(f, other)
    ensures r.role == f.role
  {
    match input
    case NameInput => f.(name := value)
    case EmailInput => f.(email := value)
    case TelInput => f.(tel := value)
    case PasswordInput => f.(password := value)
    case ConfirmPasswordInput => f.(confirmPassword := value)
  }

  datatype RoleButton = MemberButton | AdminButton

  /** A click on one of the two role buttons. */
  function SelectRole(f: RegisterForm, button: RoleButton): (r: RegisterForm)
    ensures r.role in {"member", "admin"}
    ensures button == MemberButton ==> r.role == "member"
    ensures button == AdminButton ==> r.role == "admin"
    ensures r == f.(role := r.role)
  {
    match button
    case MemberButton => f.(role := "member")
    case AdminButton => f.(role := "admin")
  }

  /** The JSON body sent to `/auth/register`. */
  datatype RegisterRequest = RegisterRequest(name: string, email: string, tel: string, role: string,
                                             password: string, createdAt: string)

  /** The request body: the form without `confirmPassword`, plus today's date (`YYYY-MM-DD`). */
  function RequestBody(f: RegisterForm, today: string): (b: RegisterRequest)
    ensures b.name == f.name && b.email == f.email && b.tel == f.tel && b.role == f.role
    ensures b.password == f.password && b.createdAt == today
  {
    RegisterRequest(f.name, f.email, f.tel, f.role, f.password, today)
  }

  const MismatchError := "รหัสผ่านไม่ตรงกัน"
  const RegisterFailed := "การสมัครสมาชิกล้มเหลว"
  const RegisterErrorFallback := "เกิดข้อผิดพลาดในการสมัครสมาชิก"
  const LoginAfterRegister := "/login?message=สมัครสมาชิกสำเร็จ กรุณาเข้าสู่ระบบ"

  /** The reply to `/auth/register`: nothing when it succeeds with `success`, otherwise the exception. */
  function RegisterReply(reply: Fetched): (r: Outcome<Thrown>)
    ensures r.Pass? <==> reply.Response? && reply.ok && reply.body.Json? && Truthy(Get(reply.body.value, "success"))
  {
    match reply
    case NetworkFailure(m) => Fail(FetchError(m))
    case Response(ok, _, _, body) =>
      match ReadJson(body)
      case Failure(e) => Fail(e)
      case Success(data) =>
        if !ok then
          match Prop(data, "message")
          case Failure(e) => Fail(e)
          case Success(message) => Fail(NewError(ToString(Or(message, Str(RegisterFailed)))))
        else
          match Prop(data, "success")
          case Failure(e) => Fail(e)
          case Success(success) => if Truthy(success) then Pass else Fail(NewError(RegisterFailed))
  }

  /** What a submission leaves behind. */
  datatype Submission = Submission(error: Option<string>, sent: Option<RegisterRequest>, navigate: Option<string>,
                                   loading: bool)

  /** `handleSubmit` given today's date and the backend's reply. */
  function Submit(f: RegisterForm, today: string, reply: Fetched): (r: Submission)
    ensures !r.loading
    ensures f.password != f.confirmPassword ==> r == Submission(Some(MismatchError), None, None, false)
    ensures f.password == f.confirmPassword ==> r.sent == Some(RequestBody(f, today))
    ensures r.navigate.Some? <==> f.password == f.confirmPassword && RegisterReply(reply).Pass?
    ensures r.navigate.Some? ==> r.navigate.value == LoginAfterRegister && r.error.None?
    ensures r.error.None? ==> r.navigate.Some?
    ensures f.password == f.confirmPassword && RegisterReply(reply).Fail? ==>
              var e := RegisterReply(reply).error;
              r.error == Some(if e.message != "" then e.message else RegisterErrorFallback)
  {
    if f.password != f.confirmPassword then Submission(Some(MismatchError), None, None, false)
    else
      var body := RequestBody(f, today);
      match RegisterReply(reply)
      case Pass => Submission(None, Some(body), Some(LoginAfterRegister), false)
      case Fail(e) =>
        Submission(Some(if e.message != "" then e.message else RegisterErrorFallback), Some(body), None, false)
  }

  /** `if (user) router.push("/")`: a signed-in visitor is sent home. */
  function LoggedInRedirect(user: JsValue): (target: Option<string>)
    ensures target.Some? <==> Truthy(user)
    ensures target.Some? ==> target.value == "/"
  {
    if Truthy(user) then Some("/") else None
  }

  /** One interaction with the form before submitting. */
  datatype Event = Typed(input: TextInput, value: string) | Clicked(button: RoleButton)

  /** The form after a sequence of interactions. */
  function ApplyEvents(f: RegisterForm, events: seq<Event>): RegisterForm
    decreases |events|
  {
    if events == [] then f
    else
      var next := match events[0]
        case Typed(input, value) => EditInput(f, input, value)
        case Clicked(button) => SelectRole(f, button);
      ApplyEvents(next, events[1..])
  }

  /** The role starts as "member" and, whatever is typed or clicked, is only ever "member" or "admin";
      it is "member" until the admin button is clicked. */
  lemma {:induction false} RoleStaysChoice(f: RegisterForm, events: seq<Event>)
    requires f.role in {"member", "admin"}
    ensures ApplyEvents(f, events).role in {"member", "admin"}
    ensures (f.role == "member" && forall i :: 0 <= i < |events| ==> events[i] != Clicked(AdminButton)) ==>
              ApplyEvents(f, events).role == "member"
    decreases |events|
  {
    if events != [] {
      var next := match events[0]
        case Typed(input, value) => EditInput(f, input, value)
        case Clicked(button) => SelectRole(f, button);
      RoleStaysChoice(next, events[1..]);
      assert forall i :: 1 <= i < |events| ==> events[1..][i - 1] == events[i];
    }
  }

  /** A non-OK reply with a JSON object body reports the body's message, or the fixed failure text. */
  lemma RejectedMessage(f: RegisterForm, today: string, status: nat, statusText: string, fields: map<string, JsValue>)
    requires f.password == f.confirmPassword
    requires !("message" in fields && fields["message"].Arr?)
    ensures var message := if "message" in fields then fields["message"] else Undefined;
            Submit(f, today, Response(false, status, statusText, Json(Obj(fields)))).error
              == Some(if Truthy(message) then ToString(message) else RegisterFailed)
  {
    var message := if "message" in fields then fields["message"] else Undefined;
    if Truthy(message) {
      TruthyToStringNonEmpty(message);
    }
  }
}

=== FILE: seqs.dfy ===
/** Order-preserving selection from a sequence: `Array.prototype.filter` and what it guarantees. */
module Seqs {

  /** `a` is `b` with some elements left out and the rest in their original order. */
  predicate Subsequence<T(==)>(a: seq<T>, b: seq<T>) {
    a == [] || (b != [] && if a[0] == b[0] then Subsequence(a[1..], b[1..]) else Subsequence(a, b[1..]))
  }

  /** A subsequence of the tail is a subsequence of the whole. */
  lemma {:induction false} SubsequenceOfTail<T>(a: seq<T>, b: seq<T>)
    requires b != [] && Subsequence(a, b[1..])
    ensures Subsequence(a, b)
    decreases |b|, 0
  {
    if a != [] && a[0] == b[0] {
      SubsequenceDropFirst(a, b[1..]);
    }
  }

  /** Dropping the head of a subsequence keeps it a subsequence. */
  lemma {:induction false} SubsequenceDropFirst<T>(a: seq<T>, b: seq<T>)
    requires a != [] && Subsequence(a, b)
    ensures Subsequence(a[1..], b)
    decreases |b|, 1
  {
    if a[0] == b[0] {
      if a[1..] != [] {
        SubsequenceDropFirst(a[1..], b[1..]);
        SubsequenceOfTail(a[1..], b);
      }
    } else {
      SubsequenceDropFirst(a, b[1..]);
      if a[1..] != [] {
        SubsequenceOfTail(a[1..], b);
      }
    }
  }

  /** How many elements of `s` satisfy `p`. */
  function Count<T>(s: seq<T>, p: T -> bool): nat {
    if s == [] then 0 else (if p(s[0]) then 1 else 0) + Count(s[1..], p)
  }

  /** `s.filter(p)`. */
  function Filter<T>(s: seq<T>, p: T -> bool): (r: seq<T>)
    ensures forall j :: 0 <= j < |r| ==> p(r[j])
    ensures forall i :: 0 <= i < |s| && p(s[i]) ==> s[i] in r
    ensures |r| <= |s|
  {
    if s == [] then []
    else
      var rest := Filter(s[1..], p);
      assert forall i :: 1 <= i < |s| ==> s[i] == s[1..][i - 1];
      if p(s[0]) then [s[0]] + rest else rest
  }

  /** The filter keeps exactly the satisfying elements, in their original order. */
  lemma {:induction false} FilterIsOrderedSelection<T>(s: seq<T>, p: T -> bool)
    ensures Subsequence(Filter(s, p), s)
    ensures |Filter(s, p)| == Count(s, p)
  {
    if s != [] {
      FilterIsOrderedSelection(s[1..], p);
      var rest := Filter(s[1..], p);
      if p(s[0]) {
        assert Filter(s, p)[1..] == rest;
      } else {
        SubsequenceOfTail(rest, s);
      }
    }
  }

  /** When every element satisfies `p`, the filter changes nothing. */
  lemma {:induction false} FilterAll<T>(s: seq<T>, p: T -> bool)
    requires forall i :: 0 <= i < |s| ==> p(s[i])
    ensures Filter(s, p) == s
  {
    if s != [] {
      FilterAll(s[1..], p);
    }
  }

  /** Every element of a subsequence is an element of the whole. */
  lemma {:induction false} SubsequenceMembers<T>(a: seq<T>, b: seq<T>, x: T)
    requires Subsequence(a, b) && x in a
    ensures x in b
  {
    if x == a[0] {
      if a[0] != b[0] {
        SubsequenceMembers(a, b[1..], x);
      }
    } else if a[0] == b[0] {
      SubsequenceMembers(a[1..], b[1..], x);
    } else {
      SubsequenceMembers(a, b[1..], x);
    }
  }

  /** An element either satisfies `p` or satisfies its negation: the two counts add up to the length. */
  lemma {:induction false} CountSplit<T>(s: seq<T>, p: T -> bool, q: T -> bool)
    requires forall x :: q(x) == !p(x)
    ensures Count(s, p) + Count(s, q) == |s|
  {
    if s != [] {
      CountSplit(s[1..], p, q);
    }
  }
}

=== FILE: session_state.dfy ===
/** The in-memory `(user, token, loading)` triple both session managers keep, beside the durable store,
    and the two transitions they share: commit a session, and sign out. */
module SessionState {
  import opened Js
  import opened Storage

  /** React state: the user object, the token and the loading flag. */
  datatype Session = Session(user: JsValue, token: JsValue, loading: bool)

  /** Everything a session manager owns: its React state and `localStorage`. */
  datatype Client = Client(session: Session, store: Store)

  /** The state at mount: no user, no token, still loading, over whatever storage the browser kept. */
  function Mount(store: Store): (c: Client)
    ensures c.session.user.Null? && c.session.token.Null? && c.session.loading
    ensures c.store == store
  {
    Client(Session(Null, Null, true), store)
  }

  /** Storage holds the serialisation of the in-memory session: `token` is `String(token)` and `user`
      is `JSON.stringify(user)`. */
  ghost predicate Persisted(c: Client, codec: JsonCodec) {
    && TokenKey in c.store && c.store[TokenKey] == ToString(c.session.token)
    && UserKey in c.store && c.store[UserKey] == codec.stringify(c.session.user)
  }

  /** The commit of a login: set user and token in memory, then write both storage keys. */
  function Commit(c: Client, user: JsValue, token: JsValue, codec: JsonCodec): (r: Client)
    ensures r.session == Session(user, token, c.session.loading)
    ensures Persisted(r, codec)
    ensures OtherKeysKept(c.store, r.store)
  {
    Client(Session(user, token, c.session.loading),
           c.store[TokenKey := ToString(token)][UserKey := codec.stringify(user)])
  }

  /** `logout()`: clear user and token, remove both storage keys. */
  function SignOut(c: Client): (r: Client)
    ensures r.session.user.Null? && r.session.token.Null?
    ensures r.session.loading == c.session.loading
    ensures TokenKey !in r.store && UserKey !in r.store
    ensures OtherKeysKept(c.store, r.store)
  {
    Client(Session(Null, Null, c.session.loading), c.store - {TokenKey, UserKey})
  }

  /** Signing out twice is signing out once. */
  lemma SignOutIdempotent(c: Client)
    ensures SignOut(SignOut(c)) == SignOut(c)
  {
    assert SignOut(c).store - {TokenKey, UserKey} == SignOut(c).store;
  }

  /** A commit after a sign-out, or a sign-out after a commit, erases what came before. */
  lemma SignOutForgetsCommit(c: Client, user: JsValue, token: JsValue, codec: JsonCodec)
    ensures SignOut(Commit(c, user, token, codec)) == SignOut(c)
  {
    var r := SignOut(Commit(c, user, token, codec));
    assert r.store == SignOut(c).store;
  }
}

=== FILE: storage.dfy ===
/** The browser's `localStorage` as a map from keys to strings, and the two keys the session uses. */
module Storage {
  import opened Wrappers

  type Store = map<string, string>

  const TokenKey := "token"
  const UserKey := "user"

  /** `localStorage.getItem(k)`: `null` (None) for a missing key. */
  function GetItem(s: Store, k: string): (r: Option<string>)
    ensures r.Some? <==> k in s
    ensures r.Some? ==> r.value == s[k]
  {
    if k in s then Some(s[k]) else None
  }

  /** A `getItem` result that is truthy: present and not the empty string. */
  predicate Present(item: Option<string>) {
    item.Some? && item.value != ""
  }

  /** Keys other than `token` and `user` hold the same entries in both stores. */
  ghost predicate OtherKeysKept(before: Store, after: Store) {
    forall k :: k != TokenKey && k != UserKey ==>
      (k in before <==> k in after) && (k in before ==> before[k] == after[k])
  }
}

=== FILE: text.dfy ===
/** String helpers with the meaning JavaScript gives them. A Dafny `string` is a sequence of Unicode scalar
    values; JavaScript counts UTF-16 code units, and the two agree on text inside the Basic Multilingual Plane. */
module Text {

  /** `s.startsWith(prefix)`. */
  predicate StartsWith(s: string, prefix: string) {
    |prefix| <= |s| && s[..|prefix|] == prefix
  }

  /** `sub` occurs in `s` at offset `i`. */
  predicate OccursAt(s: string, sub: string, i: nat) {
    i + |sub| <= |s| && s[i..i + |sub|] == sub
  }

  /** `s.includes(sub)`: `sub` occurs at some offset of `s`. */
  predicate Contains(s: string, sub: string) {
    exists i: nat :: i <= |s| && OccursAt(s, sub, i)
  }

  /** A decimal digit character. */
  predicate IsDigit(c: char) {
    '0' <= c <= '9'
  }

  function DigitChar(d: nat): (c: char)
    requires d < 10
    ensures IsDigit(c)
  {
    ['0', '1', '2', '3', '4', '5', '6', '7', '8', '9'][d]
  }

  function DigitValue(c: char): (d: nat)
    requires IsDigit(c)
    ensures d < 10
  {
    (c as int - '0' as int) as nat
  }

  /** The decimal rendering JavaScript gives a non-negative integer (`${n}`): no leading zeros. */
  function Decimal(n: nat): (s: string)
    ensures |s| > 0
    ensures forall i :: 0 <= i < |s| ==> IsDigit(s[i])
    ensures s[0] == '0' ==> n == 0 && s == "0"
  {
    if n < 10 then [DigitChar(n)] else Decimal(n / 10) + [DigitChar(n % 10)]
  }

  /** The number a string of decimal digits denotes: the reading inverse of `Decimal`. */
  function DigitsValue(s: string): (n: nat)
    requires forall i :: 0 <= i < |s| ==> IsDigit(s[i])
  {
    if s == [] then 0 else 10 * DigitsValue(s[..|s| - 1]) + DigitValue(s[|s| - 1])
  }

  lemma DigitRoundTrip(d: nat)
    requires d < 10
    ensures DigitValue(DigitChar(d)) == d
  {
  }

  /** Reading back the rendering of `n` gives `n`. */
  lemma {:induction false} DecimalRoundTrip(n: nat)
    ensures DigitsValue(Decimal(n)) == n
  {
    var s := Decimal(n);
    if n < 10 {
      DigitRoundTrip(n);
      assert s[..0] == [];
    } else {
      DecimalRoundTrip(n / 10);
      DigitRoundTrip(n % 10);
      assert s[..|s| - 1] == Decimal(n / 10);
    }
  }

  /** `c.toUpperCase()` for one code unit; only the ASCII letters are mapped. */
  function UpperChar(c: char): (u: char)
    ensures 'a' <= c <= 'z' ==> 'A' <= u <= 'Z' && u as int == c as int - 32
    ensures !('a' <= c <= 'z') ==> u == c
  {
    if 'a' <= c <= 'z' then (c as int - 32) as char else c
  }
}

=== FILE: time.dfy ===
/** JavaScript `Date` values as integer milliseconds since the epoch, including the invalid date. */
module Time {

  /** Largest magnitude of a valid time value (section 21.4.1 of ECMA-262, TimeClip). */
  const MaxTimeMs: int := 8_640_000_000_000_000

  /** Milliseconds in a day, as the pages write it: `24 * 60 * 60 * 1000`. */
  const DayMs: int := 24 * 60 * 60 * 1000

  /** A `Date`: a time value, or the invalid date whose `getTime()` is NaN. */
  datatype Instant = Valid(ms: int) | Invalid

  /** `new Date(t)` for a number `t`: out of range gives the invalid date. */
  function TimeClip(t: int): (r: Instant)
    ensures r.Valid? <==> -MaxTimeMs <= t <= MaxTimeMs
    ensures r.Valid? ==> r.ms == t
  {
    if -MaxTimeMs <= t <= MaxTimeMs then Valid(t) else Invalid
  }

  /** `a < b` on dates: compares time values; any comparison with NaN is false. */
  predicate Before(a: Instant, b: Instant) {
    a.Valid? && b.Valid? && a.ms < b.ms
  }

  /** `a <= b` on dates. */
  predicate NotAfter(a: Instant, b: Instant) {
    a.Valid? && b.Valid? && a.ms <= b.ms
  }

  /** `new Date(start.getTime() + days * 24 * 60 * 60 * 1000)`. */
  function AddDays(start: Instant, days: int): (r: Instant)
    ensures start.Invalid? ==> r.Invalid?
    ensures start.Valid? ==> r == TimeClip(start.ms + days * DayMs)
  {
    match start
    case Valid(ms) => TimeClip(ms + days * DayMs)
    case Invalid => Invalid
  }
}

=== FILE: wrappers.dfy ===
/** Failure-carrying datatypes shared by every module of the model. */
module Wrappers {

  /** A value that may be absent: JavaScript's `null`/`undefined` at a typed boundary. */
  datatype Option<+T> = None | Some(value: T) {

    /** The carried value, or `default` when absent (`x ?? default`). */
    function GetOr(default: T): T {
      match this
      case Some(v) => v
      case None => default
    }
  }

  /** The result of a computation that may throw: `Failure` carries the thrown value. */
  datatype Result<+R, +E> = Success(value: R) | Failure(error: E) {

    predicate IsFailure() {
      Failure?
    }

    function PropagateFailure<U>(): Result<U, E>
      requires Failure?
    {
      Failure(error)
    }

    function Extract(): R
      requires Success?
    {
      value
    }
  }

  /** The outcome of a computation that returns nothing but may throw. */
  datatype Outcome<+E> = Pass | Fail(error: E)
}
